=== FILE: README.md ===
# packer-builder-softlayer: the build saga in Dafny

This project models the core of the SoftLayer builder for Packer. That core
has two parts:

- the decision logic of `SoftlayerClient`, which is the REST client;
- the four build steps. These create a temporary SSH key, create a virtual
  guest (an instance), wait for it, and capture an image from it. Each step
  has a compensating `Cleanup`.

Transport and JSON decoding are taken away. A reply reaches the model as one
of three things: no reply, an undecodable body, or a decoded `Json` value. A
DELETE reaches it as its raw body, or as a failed round trip. Go's three
possible outcomes are kept apart as `Ok`, `Err` and `Panic`. The outcomes
are a value, an error return, and a failed type assertion or index.

Modules:

- `Json` (json.dfy): decoded JSON values. Map lookup gives `JNull` both for a
  missing key and for an explicit null, as Go's `map[string]interface{}` does.
- `Api` (api.dfy): remote resources, errors, results and replies.
- `Text` (text.dfy): `strings.Contains` and `strconv.Itoa` on non-negative
  numbers.
- `ClientRequest` (client_request.dfy): the instance definition, the request
  `CreateInstance` posts, hostname/domain sanitising, and block-device
  numbering.
- `Client` (client.dfy): reply classification (`doHttpRequest`,
  `hasErrors`), the `"true"` DELETE acknowledgement, block-device filtering,
  image lookup by name, instance readiness and the readiness wait.
- `ClientTest` (client_test.dfy): the three cases of
  `TestClient_FindNonSwapBlockDeviceIds`, stated as lemmas about the JSON
  listing entries the test builds.
- `Build` (state.dfy): the typed state bag and the world.
  - The world is the bag plus the set of remote resources that exist
    because of the build: keys, instances, and "orphans". An orphan is an
    object the provider created whose id the builder could not read, so no
    `Cleanup` can delete it.
  - It also defines the shape of a step transition. A `Run` returns the
    step's fields, the new world, the action and the calls it issued. A
    `Cleanup` returns the world, its calls, the failures it reported, and
    whether it panicked.
- `StepCreateSshKey`, `StepCreateInstance`, `StepWaitforInstance`,
  `StepCaptureImage`: one module per step file. Every remote or local outcome
  a step depends on is a parameter.
- `Pipeline` (pipeline.dfy): a driver for the four steps.
  - It runs them in order and stops at the first `Halt`. Then it runs
    `Cleanup` on every step that ran, in reverse order.
  - The real runner is the multistep library, which is not part of this
    model. This module encodes the runner's documented behaviour, so it is
    an assumption.
  - The runner defers each step's `Cleanup` once its `Run` returns. A panic
    in a step's own `Run` therefore still unwinds through the Cleanups of
    the steps before it, and then ends the process. A panic inside the
    readiness poller's goroutine ends the process at once, and no Cleanup
    runs.

## Model

| member | source | states |
|---|---|---|
| `Client.HasErrors` | builder/softlayer/client.go:126-132 | An object without an `"error"` entry has no error. A string `"error"` is that provider error. Any other `"error"` value, null included, panics in the type assertion. |
| `Client.Classify` | builder/softlayer/client.go:190-204 | A decoded reply is a success exactly when it is an array (its items), null (`[nil]`) or an object without `"error"` (`[object]`). An object with a string `"error"` is that provider error. A bool, number or string is "unexpected type". |
| `Client.DoHttpRequest` | builder/softlayer/client.go:176-205 | A failed round trip and an undecodable body are errors. Success means a decoded reply, giving the array's items or the single value. Only an object whose `"error"` is not a string can panic. A decoded reply is exactly what `Classify` makes of it. |
| `Client.EmptyOnlyFromEmptyArray` | builder/softlayer/client.go:190-201 | The only reply that succeeds with no first element is an empty JSON array. |
| `Client.FirstObject` | builder/softlayer/client.go:276 | `data[0].(map)` never returns an error. It succeeds iff there is a first value and it is an object, and then returns that object. |
| `Client.SingleObject` | builder/softlayer/client.go:271-276 | createObject/captureImage fail exactly when the request failed, with the same error. On success the object is the reply itself or the first item of the reply array. A successful request yields exactly what `FirstObject` makes of its values, and a panicking request panics. |
| `Client.UploadSshKey` | builder/softlayer/client.go:302-307 | The upload fails iff the request failed. A returned key id is the reply object's numeric `"id"`. A reply object with a numeric `"id"` always returns that id. The upload panics iff the request panics or the object's `"id"` is not a number. |
| `Client.Destroy` | builder/softlayer/client.go:279-289 | A DELETE never panics. It succeeds iff the raw body is exactly `true`. Otherwise the error names the resource and carries the body, which is empty after a transport failure. |
| `Client.DestroyInstance` | builder/softlayer/client.go:279-289 | Deleting an instance succeeds iff the body is `true`. It never panics, and its error names the instance and carries the body, which is empty after a transport failure. |
| `Client.DestroySshKey` | builder/softlayer/client.go:310-319 | The same acknowledgement rule, for SSH keys. It never panics, and its error names the key and carries the body. |
| `Client.DestroyImage` | builder/softlayer/client.go:450-459 | The same acknowledgement rule, for images. It never panics, and its error names the image and carries the body. |
| `Client.ParseDevice` | builder/softlayer/client.go:359-362 | An entry parses iff it is an object with a numeric `"id"` and a `"diskImage"` object with a string `"name"`, and also a numeric `"diskImageId"` when the caller needs it. A parsed entry carries that id and name. Any other entry panics (a failed type assertion) and never produces an error return. |
| `Client.ParseDevices` | builder/softlayer/client.go:358-362 | A listing parses iff every entry parses, and the result is the parsed entries pointwise. One bad entry panics. |
| `Client.KeptIdsAppend` | builder/softlayer/client.go:358-372 | Filtering is piecewise: the kept ids of a concatenation are the kept ids of each part, in order. |
| `Client.KeptIdsMembers` | builder/softlayer/client.go:366-369 | An id is kept iff some listed device has that id and a name the filter does not skip. |
| `Client.KeptIdsSingle` | builder/softlayer/client.go:366-369 | A single device is kept iff its name is not skipped. |
| `Client.KeptIdsNoneSkipped` | builder/softlayer/client.go:354-372 | When no name is skipped, every id is kept, in order. |
| `Client.FindNonSwapBlockDeviceIds` | builder/softlayer/client.go:354-373 | The loop returns, in listing order, the ids of the devices whose disk-image name contains neither `SWAP` nor `METADATA`. It panics iff some entry is malformed and never returns an error. |
| `Client.ScanImages` | builder/softlayer/client.go:392-398 | Nothing is found iff every entry is an object that is not usable. A usable entry has the wanted name and a non-nil identifier. A found id belongs to the first usable entry, and every entry before it was passed over. |
| `Client.ScanFindsFirst` | builder/softlayer/client.go:392-398 | Conversely, the first usable entry with a string identifier is the one the loop stops at. |
| `Client.FindImageIdByName` | builder/softlayer/client.go:384-406 | A failed listing passes its error through. Otherwise any error is "No image found". A returned id is non-empty and is the first usable entry's identifier. A listing with no usable entry gives "No image found". A first usable entry with an empty identifier also gives "No image found". The lookup panics iff the listing panics or the scan hits a non-string identifier. |
| `Client.FindImageIdOfFirstUsable` | builder/softlayer/client.go:392-405 | The lookup returns the first usable entry's identifier whenever that identifier is a non-empty string. |
| `Client.IsInstanceReady` | builder/softlayer/client.go:461-475 | The check never returns an error. It answers ready iff the power state's `keyName` is `RUNNING` and the first active-transaction value is nil. A failed power query reads as not ready, and so does a failed transaction query after a readable power reply. It panics iff a reply is malformed: a panicking request, an unreadable power reply, or an empty transaction reply. So when both queries succeed with well-formed replies, it answers, and "not ready" is `Ok(false)`. |
| `Client.WaitForInstanceReady` | builder/softlayer/client.go:477-521 | The wait succeeds iff some poll answers ready and every earlier poll answered not ready. If every poll answered not ready, it times out. A non-timeout error is the first failing poll's error. Without failing polls, the only error is the timeout. The wait panics iff some poll panics and every earlier poll answered not ready. |
| `ClientRequest.Sanitize` | builder/softlayer/client.go:209-215 | Only `[A-Za-z0-9.-]` survives. Each accepted character keeps its count, every other character is gone, and the result is never longer. |
| `ClientRequest.SanitizeKeepsValid` | builder/softlayer/client.go:214-215 | A name already made of accepted characters is unchanged. |
| `ClientRequest.SanitizeIdempotent` | builder/softlayer/client.go:214-215 | Sanitising twice equals sanitising once. |
| `ClientRequest.SanitizeAppend` | builder/softlayer/client.go:214-215 | Sanitising distributes over concatenation, so the kept characters stay in order. |
| `ClientRequest.DeviceNameNotSwap` | builder/softlayer/client.go:252-257 | No disk is numbered `"1"`, the swap slot. |
| `ClientRequest.DeviceNamesDistinct` | builder/softlayer/client.go:252-257 | Different disk indexes get different device numbers. |
| `ClientRequest.BuildBlockDevices` | builder/softlayer/client.go:251-263 | There is one device per capacity, in order. Each carries its capacity and the slot `"0"`, `"2"`, `"3"`, and so on. |
| `ClientRequest.BlockDeviceSlots` | builder/softlayer/client.go:251-263 | The devices of one request avoid slot `"1"` and are pairwise distinct. |
| `ClientRequest.BuildInstanceRequest` | builder/softlayer/client.go:207-264 | Hostname and domain are sanitised. Billing is hourly and the local-disk flag is false, whatever the definition says. Datacenter, CPUs, memory, private-network flag and network speed pass through. An SSH key is attached iff its id is non-zero. A base image selects a template group with no OS code and no devices. Otherwise the OS code is used, with one device per capacity: device `i` carries capacity `i` and the slot `DeviceName(i)`, which is never `"1"`, and the slots are pairwise distinct. |
| `Text.ContainsIffOccurs` | builder/softlayer/client.go:366 | `strings.Contains` holds iff the substring occurs at some position. |
| `Text.ParseItoa` | builder/softlayer/client.go:256 | Reading back `strconv.Itoa(n)` gives `n`. |
| `Text.ItoaInjective` | builder/softlayer/client.go:256 | Different numbers print differently. |
| `ClientTest.PlainNameKept` | builder/softlayer/client.go:366 | A name with no `S` and no `M` is kept by both filters. |
| `ClientTest.SwapNameSkipped` | builder/softlayer/client.go:366 | A name containing `SWAP` at any position is skipped by both filters. |
| `ClientTest.ParseTestDevice` | builder/softlayer/client_test.go:10-34 | A listing entry shaped like the test's (`device`, `id`, and a `diskImage` with `name` and `id`) parses to its id and disk-image name. |
| `ClientTest.TestPair` | builder/softlayer/client_test.go:10-34 | Two such entries parse pointwise, and the filter keeps each id iff its own name is not skipped. |
| `ClientTest.RootAndSwap` | builder/softlayer/client_test.go:10-34 | The test's two JSON entries, `root-device` (11) and `SWAP-device` (21), parse to those devices, and the filter keeps exactly `[11]`. |
| `ClientTest.AllSwap` | builder/softlayer/client_test.go:38-59 | The entries `first-SWAP-device` and `SWAP-device` parse, and the filter keeps `[]`. |
| `ClientTest.NoSwap` | builder/softlayer/client_test.go:63-87 | The entries `first-device` (11) and `second-device` (21) parse, and the filter keeps `[11, 21]`. |
| `ClientTest.MetadataFiltersDisagree` | builder/softlayer/step_capture_image.go:36-50 | A `METADATA` disk is dropped by `findNonSwapBlockDeviceIds` but kept by the capture step's own loop, which skips only `SWAP`. |
| `StepCreateSshKey.Run` | builder/softlayer/step_create_ssh_key.go:26-87 | With a key file: the file is only read, nothing is uploaded, and a read failure halts with the wrapped read error. Without one: an upload happens iff key generation and encoding succeed. A failed generation, encoding or upload halts with that call's own error, and every halt records one of these errors. Continuing stores the uploaded id in the bag and in the step, and the key becomes live. A halt leaves the live set unchanged. A panic on an upload reply whose object has no numeric `id` leaves that object live as an orphan. A successful upload always continues, with the uploaded id in the step and the generated private key in the bag. The step never aborts from a poller goroutine, because it runs no poller. |
| `StepCreateSshKey.Cleanup` | builder/softlayer/step_create_ssh_key.go:89-105 | Key id 0 does nothing. Otherwise exactly one DELETE of that key is issued. The key stops being live iff the DELETE is acknowledged, and a failure is only reported. The bag is never changed. |
| `StepCreateSshKey.NothingCreatedMeansNoCleanup` | builder/softlayer/step_create_ssh_key.go:89-93 | A step that read a key file, or did not continue, has nothing to clean up. |
| `StepCreateSshKey.UploadThenCleanup` | builder/softlayer/step_create_ssh_key.go:74-99 | After a successful upload, Cleanup deletes exactly that key. An acknowledged deletion restores the live set. |
| `StepCreateInstance.ProvisioningKeyId` | builder/softlayer/step_create_instance.go:21-26 | The key id handed to the instance definition is the bag's `ssh_key_id` when present. A non-zero id always comes from the bag, so an absent key gives 0. |
| `StepCreateInstance.Definition` | builder/softlayer/step_create_instance.go:28-41 | The definition copies the configured name, domain, datacenter, CPUs, memory, disk capacities, network speed, base image and OS code. It asks for hourly billing and a local disk, leaves the private-network flag off, and carries the given key id. |
| `StepCreateInstance.Run` | builder/softlayer/step_create_instance.go:16-56 | Exactly one create call is issued: the request built from the step's definition with the bag's key id. It carries the bag's key id iff it is present and non-zero, the sanitised names and no local disk. The step halts iff the request fails, with that error, and nothing else changes. Continuing stores the reply in `instance_data` and its `globalIdentifier` in the step, and the instance becomes live. A panic on a reply object without a string `globalIdentifier` leaves that object live as an orphan. A reply object with a string `globalIdentifier` always continues with that id. The step never aborts from a poller goroutine, because it runs no poller. |
| `StepCreateInstance.Cleanup` | builder/softlayer/step_create_instance.go:58-83 | An empty id does nothing. Otherwise the step waits and then deletes, even when the wait failed. Both failures are reported and neither stops Cleanup. The instance stops being live iff the DELETE is acknowledged. |
| `StepCreateInstance.RequestCarriesUploadedKey` | builder/softlayer/step_create_instance.go:21-41 | The instance request carries the uploaded key, and no key when the bag holds none. |
| `StepCreateInstance.CleanupTargetsCreatedInstance` | builder/softlayer/step_create_instance.go:52-78 | A fresh step that did not continue cleans nothing. One that did continue deletes the instance it created. |
| `Build.RecordedInstanceId` | builder/softlayer/step_waitfor_instance.go:18-19 | Reading the instance id back from the bag never returns an error. It succeeds iff `instance_data` is present and its `globalIdentifier` is a string, and returns that string. Otherwise the process panics. |
| `StepWaitforInstance.Run` | builder/softlayer/step_waitfor_instance.go:11-28 | The step waits on the recorded instance id with the configured timeout. It continues iff the wait succeeds, and a failed wait records a wrapped error and halts. A missing or non-string id panics. A panicking poll aborts the process from the poller's goroutine. It panics in its own goroutine iff the recorded id is unreadable. A readable id with a failed wait always halts with the wait error wrapped in "Error waiting for instance to become ACTIVE". |
| `StepWaitforInstance.Cleanup` | builder/softlayer/step_waitfor_instance.go:30-31 | Nothing to undo. |
| `StepCaptureImage.StandardDeviceIds` | builder/softlayer/step_capture_image.go:34-50 | The standard capture's device ids are available iff the block-device request succeeds and every entry parses, including its `diskImageId`. They are then the ids of the listed devices whose name does not contain `SWAP`, in order. A failure is the request's or the parser's. A failed listing request is that same error. The ids panic iff the request panics or some entry is malformed. |
| `StepCaptureImage.Run` | builder/softlayer/step_capture_image.go:13-23 | The live set, key id and instance data are untouched. The first call is the block-device listing iff the image type is exactly `standard`, and otherwise the flex capture. A continuing run has an image id. Every halt records one of the step's four wrapped errors or "No image found" for the configured name. With a readable instance id, a standard capture whose listing, capture, wait and lookup all succeed continues with the looked-up id. A flex capture with a string identifier and a successful wait continues with that identifier. |
| `StepCaptureImage.RunStandard` | builder/softlayer/step_capture_image.go:23-61 | The listing is followed by a standard capture of the non-swap device ids. A failed listing, capture, wait or image listing halts with the matching wrapped error and changes nothing else. A failed wait leaves `image_id` unset. Continuing means the image id is the non-empty result of the lookup by name. If no image is usable, the step halts with "No image found". When the listing, capture, wait and lookup all succeed, the step continues with `image_id` set to the lookup's identifier. |
| `StepCaptureImage.AwaitStandard` | builder/softlayer/step_capture_image.go:76-94 | After the capture, the step waits and then lists the images, and only after a successful wait. A failed wait or image listing halts with its wrapped error. Once the listing is read, the step halts iff the lookup by name fails, and then with "No image found". A panicking poll aborts the process, and only then. After a successful wait, a successful lookup always continues with `image_id` set to the found identifier. |
| `StepCaptureImage.RecordImageId` | builder/softlayer/step_capture_image.go:96-112 | It continues iff `findImageIdByName` on the listing would succeed, recording that id. It halts iff the lookup would fail, with "No image found". |
| `StepCaptureImage.RunFlex` | builder/softlayer/step_capture_image.go:62-84 | The flex capture's `globalIdentifier` is written to `image_id` before the wait, whatever the wait does. The step continues iff the capture succeeds, the identifier is a string and the wait succeeds. A failed capture or wait halts with its wrapped error. A capture reply whose `globalIdentifier` is not a string panics in the step, with nothing recorded. The step aborts from the poller iff the wait panics after a readable capture. |
| `StepCaptureImage.FlexAcceptsEmptyId` | builder/softlayer/step_capture_image.go:71-72 | An empty flex identifier is recorded and the step still continues. |
| `StepCaptureImage.Cleanup` | builder/softlayer/step_capture_image.go:118-119 | Nothing to undo. |
| `Pipeline.RunBuildLeaves` | builder/softlayer/step_create_instance.go:21-56 | After the forward pass, the key step holds the uploaded key id. The instance step holds the created instance's `globalIdentifier` exactly when it continued, and `""` otherwise. The live set is the original one plus those two. The cleanup unwinds exactly the steps that ran (runner assumed). |
| `Pipeline.NoLeakWhenCleanupAcknowledged` | builder/softlayer/step_create_instance.go:58-83 | Assuming the runner unwinds in reverse and both DELETEs are acknowledged, a build that ends or halts leaves exactly the keys and instances that were live before it. Images are not covered. This holds whichever step halts. |
| `Pipeline.PanicLeavesOnlyOrphans` | builder/softlayer/step_create_instance.go:44-53 | A panic in a step's own Run unwinds through the earlier steps' Cleanups. With acknowledged deletions, the build then leaves what was live before it, plus only the object whose id the panicking upload or create could not read (runner assumed). |
| `Pipeline.InstanceDeletedBeforeKey` | builder/softlayer/step_create_instance.go:67-78 | With a generated key and a created instance, the cleanup calls are: wait for the instance, delete it, then delete the key. This holds whether the build ends, halts, or panics in a step's own Run (runner assumed). |
| `Pipeline.KeyHaltCleansNothing` | builder/softlayer/step_create_ssh_key.go:89-93 | If the build stops in the key step, no cleanup call is made and no instance is owned. After a halt the live set is unchanged. After a panic it grows by at most the orphaned upload. |
| `Pipeline.IdlessKeyIsLeaked` | builder/softlayer/client.go:302-307 | An upload reply whose object has no numeric `id` panics the process after the key was created, so that key is left live and nothing is cleaned up. |
| `Pipeline.IdlessInstanceIsLeaked` | builder/softlayer/step_create_instance.go:51-53 | A create reply without a string `globalIdentifier` panics in the instance step after the instance was created. The instance is left live as an orphan, while the panic still unwinds through the key step's Cleanup, which deletes the key (runner assumed). |

## Left out

- HTTP transport, URLs, credentials and the request body encoding
  (`generateRequestBody`, `doRawHttpRequest`) are not modelled. A reply
  enters as a `Reply` value and a DELETE as a `RawResponse`.
  - The URL `destroyImage` uses is part of this. It addresses the
    `SoftLayer_Virtual_Guest` service with an image id.
- JSON numbers are `int`. Go decodes them as `float64` and truncates ids
  with `int64(...)`, and this model has no fractional or out-of-range ids.
- The regular-expression compile error and the body-encoding errors in
  `CreateInstance`, `UploadSshKey` and the capture calls are left out. The
  pattern and the request types are fixed, so those paths cannot fail.
- `Client.WaitForInstanceReady`: the goroutine, the 3-second sleep and the
  timer race are replaced by the sequence of readiness answers obtained
  before the deadline. The model does not say how many polls fit in the
  timeout.
  - `isInstanceReady` swallows query errors (client.go:463-465, 469-471)
    and never returns an error at all (`Client.IsInstanceReady`). So the
    poller's error branch (client.go:489-491) is unreachable, and the wait
    ends only in success, a timeout, or a panic that ends the process. The
    model follows the code.
- `getInstancePublicIp`, `getInstancePrivateIp`, `ssh.go`, `artifact.go`,
  `step_shutdown.go`, `main.go` and the builder's configuration parsing are
  not part of this model.
- RSA key generation, PEM and authorized-key encoding, reading the private
  key file, and the uuid key label are parameters of
  `StepCreateSshKey.Run`.
- UI messages and log lines are left out. Error texts are kept only as
  structured `Error` values: a wrapped error keeps the context string of the
  step that wrapped it.
- `StepCreateInstance.Run`: the step source writes the configured disk
  capacities to a field `DiskCapacity`. `InstanceType` (client.go:42) has no
  such field, only `DiskCapacities`, which `CreateInstance` reads. The model
  passes the capacities as `DiskCapacities`.
  - The steps also disagree on their own signatures: `Run` with and without
    a context, and `config` versus `Config`. That skew is not modelled.
- Images are not tracked in the live set, and no step ever deletes one.
  The capture call can succeed while the capture step still halts
  afterwards: the wait fails (step_capture_image.go:78-84), the image
  listing fails (86-94), or no image is found (107-112). The build then
  fails, and the captured image is left behind as a leak, not as the
  build's product. `Pipeline.NoLeakWhenCleanupAcknowledged` and
  `Pipeline.PanicLeavesOnlyOrphans` cover keys and instances only.
- `Pipeline.IdlessInstanceIsLeaked`, `Pipeline.PanicLeavesOnlyOrphans` and
  the rest of `Pipeline` assume the runner's Go semantics. Each step's
  `Cleanup` is deferred after its `Run` returns, so a panic in a step's
  `Run` unwinds through the earlier steps' Cleanups but not its own. The
  runner is not in this repository, so this is an assumption.
- The multistep runner is outside this repository. `Pipeline` encodes only
  its documented order, and it leaves out the optional no-op shutdown step
  and cancellation.
- `Pipeline.NoLeakWhenCleanupAcknowledged` requires that the provider hands
  out a non-zero key id and a non-empty instance id. A key id of 0 or an
  instance id of `""` would be created but skipped by Cleanup, because both
  steps use those values to mean "nothing created".

=== FILE: api.dfy ===
/** The vocabulary shared by the client and the build steps: remote
    resources, errors, and the three ways a Go call can end. */
module Api {
  import opened Json

  datatype Option<T> = None | Some(value: T)

  /** A remote SoftLayer object the builder creates or destroys. */
  datatype Resource =
    | SshKey(keyId: int)
    | Instance(instanceId: string)
    | Image(imageId: string)
    /** an object the provider created but whose id the builder could not
        read: no Cleanup knows about it, so it outlives the build */
    | Orphan(fields: map<string, Json>)

  datatype Error =
    /** the HTTP round trip failed ("Failed to get proper HTTP response") */
    | TransportFailed
    /** the body was not JSON ("Failed to decode JSON response") */
    | UndecodableResponse(body: string)
    /** the API answered with an object carrying an "error" string */
    | ProviderError(message: string)
    /** the decoded body was a bare string, number or boolean */
    | UnexpectedType
    /** a DELETE was not acknowledged with the body `true` */
    | DestroyFailed(resource: Resource, response: string)
    /** no image with the wanted name and a usable identifier was listed */
    | NoImageFound(name: string)
    /** the readiness wait ran past its deadline */
    | Timeout
    /** a local failure: reading the key file, generating or encoding a key */
    | LocalFailure(what: string)
    /** a step's own message wrapped around the error that caused it */
    | Wrapped(context: string, cause: Error)

  /** How a Go call ends: it returns a value, it returns an error, or it
      panics (a failed type assertion or an index out of range), which
      aborts the whole process. */
  datatype Result<T> = Ok(value: T) | Err(error: Error) | Panic(reason: string)

  /** The outcome of one HTTP round trip whose body is then decoded. */
  datatype Reply =
    | NoReply
    | Undecodable(body: string)
    | Decoded(value: Json)

  /** The outcome of one HTTP round trip whose raw body is used as is. */
  datatype RawResponse = RawOk(body: string) | RawFailed
}

=== FILE: client.dfy ===
/** The decision logic of `SoftlayerClient` (builder/softlayer/client.go)
    once transport and JSON decoding are taken away: how a decoded reply is
    classified, how DELETE acknowledgements are judged, which block devices
    an image keeps, how an image id is found by name, and when an instance
    counts as ready. */
module Client {
  import opened Json
  import opened Api
  import Text

  /* ---------------- reply classification (doHttpRequest, hasErrors) --- */

  /** hasErrors: an object with an "error" entry is a provider error; the
      entry must be a string, or the type assertion panics. */
  function HasErrors(body: map<string, Json>): (r: Result<()>)
    ensures r.Ok? <==> "error" !in body
    ensures r.Err? <==> "error" in body && body["error"].JStr?
    ensures r.Err? ==> r.error == ProviderError(body["error"].s)
    ensures r.Panic? <==> "error" in body && !body["error"].JStr?
  {
    if "error" !in body then Ok(())
    else match body["error"]
      case JStr(message) => Err(ProviderError(message))
      case _ => Panic("error entry is not a string")
  }

  /** The type switch at the end of doHttpRequest: every successful reply
      becomes a list of values. */
  function Classify(v: Json): (r: Result<seq<Json>>)
    ensures r.Ok? <==> v.JArr? || v.JNull? || (v.JObj? && "error" !in v.fields)
    ensures r.Ok? ==> r.value == if v.JArr? then v.items else [v]
    ensures r.Err? <==> v.JBool? || v.JNum? || v.JStr? || (v.JObj? && "error" in v.fields && v.fields["error"].JStr?)
    ensures r.Err? ==> r.error == if v.JObj? then ProviderError(v.fields["error"].s) else UnexpectedType
  {
    match v
    case JArr(items) => Ok(items)
    case JObj(fields) =>
      (match HasErrors(fields)
       case Ok(_) => Ok([v])
       case Err(e) => Err(e)
       case Panic(p) => Panic(p))
    case JNull => Ok([JNull])
    case _ => Err(UnexpectedType)
  }

  /** doHttpRequest: a failed round trip and an undecodable body are
      errors; a decoded body is classified. */
  function DoHttpRequest(reply: Reply): (r: Result<seq<Json>>)
    ensures reply.NoReply? ==> r == Err(TransportFailed)
    ensures reply.Undecodable? ==> r == Err(UndecodableResponse(reply.body))
    ensures r.Ok? ==> reply.Decoded? && r.value == if reply.value.JArr? then reply.value.items else [reply.value]
    ensures r.Panic? ==> reply.Decoded? && reply.value.JObj? && "error" in reply.value.fields
    ensures reply.Decoded? ==> r == Classify(reply.value)
  {
    match reply
    case NoReply => Err(TransportFailed)
    case Undecodable(body) => Err(UndecodableResponse(body))
    case Decoded(v) => Classify(v)
  }

  /** The only successful reply with no first element is an empty JSON
      array; every other success can be indexed at 0. */
  lemma EmptyOnlyFromEmptyArray(reply: Reply)
    ensures DoHttpRequest(reply) == Ok([]) <==> reply == Decoded(JArr([]))
  {
  }

  /** `data[0].(map[string]interface{})`: the first value of a reply,
      which must exist and be an object. */
  function FirstObject(data: seq<Json>): (r: Result<map<string, Json>>)
    ensures !r.Err?
    ensures r.Ok? <==> |data| > 0 && data[0].JObj?
    ensures r.Ok? ==> data[0] == JObj(r.value)
  {
    if |data| > 0 && data[0].JObj? then Ok(data[0].fields)
    else Panic("first reply value is missing or not an object")
  }

  /** The object returned by createObject, captureImage and
      createArchiveTransaction. */
  function SingleObject(reply: Reply): (r: Result<map<string, Json>>)
    ensures r.Err? <==> DoHttpRequest(reply).Err?
    ensures r.Err? ==> r.error == DoHttpRequest(reply).error
    ensures r.Ok? ==> reply == Decoded(JObj(r.value)) || (reply.Decoded? && reply.value.JArr? && |reply.value.items| > 0 && reply.value.items[0] == JObj(r.value))
    ensures DoHttpRequest(reply).Ok? ==> r == FirstObject(DoHttpRequest(reply).value)
    ensures DoHttpRequest(reply).Panic? ==> r.Panic?
  {
    match DoHttpRequest(reply)
    case Ok(data) => FirstObject(data)
    case Err(e) => Err(e)
    case Panic(p) => Panic(p)
  }

  /** The object a creating call's reply reports, as a leaked resource:
      empty when the reply carried no object. */
  function OrphanOf(reply: Reply): (r: set<Resource>)
    ensures r == {} <==> !SingleObject(reply).Ok?
    ensures SingleObject(reply).Ok? ==> r == {Orphan(SingleObject(reply).value)}
  {
    match SingleObject(reply)
    case Ok(fields) => {Orphan(fields)}
    case _ => {}
  }

  /** UploadSshKey: the new key's id is the reply object's numeric "id". */
  function UploadSshKey(reply: Reply): (r: Result<int>)
    ensures r.Err? <==> DoHttpRequest(reply).Err?
    ensures r.Ok? ==> SingleObject(reply).Ok? && Lookup(SingleObject(reply).value, "id") == JNum(r.value)
    ensures SingleObject(reply).Ok? && Lookup(SingleObject(reply).value, "id").JNum? ==>
              r == Ok(Lookup(SingleObject(reply).value, "id").n)
    ensures r.Panic? <==> SingleObject(reply).Panic? || (SingleObject(reply).Ok? && !Lookup(SingleObject(reply).value, "id").JNum?)
  {
    match SingleObject(reply)
    case Ok(fields) =>
      (match Lookup(fields, "id")
       case JNum(id) => Ok(id)
       case _ => Panic("id is not a number"))
    case Err(e) => Err(e)
    case Panic(p) => Panic(p)
  }

  /* ---------------- DELETE acknowledgements ---------------------------- */

  /** The body a DELETE produced; a failed round trip leaves it empty. */
  function BodyOf(raw: RawResponse): string
  {
    if raw.RawOk? then raw.body else ""
  }

  /** DestroyInstance, DestroySshKey and destroyImage: the deletion counts
      only when the raw body is exactly `true`; anything else, including a
      failed round trip, is reported with the body that was received. */
  function Destroy(resource: Resource, raw: RawResponse): (r: Result<()>)
    ensures !r.Panic?
    ensures r.Ok? <==> raw == RawOk("true")
    ensures r.Err? ==> r.error == DestroyFailed(resource, BodyOf(raw))
  {
    var body := BodyOf(raw);
    if body != "true" then Err(DestroyFailed(resource, body)) else Ok(())
  }

  function DestroyInstance(instanceId: string, raw: RawResponse): (r: Result<()>)
    ensures r.Ok? <==> raw == RawOk("true")
    ensures raw.RawFailed? ==> r == Err(DestroyFailed(Instance(instanceId), ""))
    ensures !r.Panic?
    ensures r.Err? ==> r.error == DestroyFailed(Instance(instanceId), BodyOf(raw))
  {
    Destroy(Instance(instanceId), raw)
  }

  function DestroySshKey(keyId: int, raw: RawResponse): (r: Result<()>)
    ensures r.Ok? <==> raw == RawOk("true")
    ensures raw.RawFailed? ==> r == Err(DestroyFailed(SshKey(keyId), ""))
    ensures !r.Panic?
    ensures r.Err? ==> r.error == DestroyFailed(SshKey(keyId), BodyOf(raw))
  {
    Destroy(SshKey(keyId), raw)
  }

  function DestroyImage(imageId: string, raw: RawResponse): (r: Result<()>)
    ensures r.Ok? <==> raw == RawOk("true")
    ensures raw.RawFailed? ==> r == Err(DestroyFailed(Image(imageId), ""))
    ensures !r.Panic?
    ensures r.Err? ==> r.error == DestroyFailed(Image(imageId), BodyOf(raw))
  {
    Destroy(Image(imageId), raw)
  }

  /* ---------------- block devices -------------------------------------- */

  /** What a block-device listing entry contributes: its id and the name of
      its disk image. */
  datatype DeviceInfo = DeviceInfo(id: int, name: string)

  /** findNonSwapBlockDeviceIds skips swap and metadata disks; the capture
      step's own loop skips swap disks only. */
  datatype DeviceFilter = SkipSwap | SkipSwapAndMetadata

  predicate Skipped(filter: DeviceFilter, name: string)
  {
    Text.Contains(name, "SWAP") || (filter == SkipSwapAndMetadata && Text.Contains(name, "METADATA"))
  }

  /** The type assertions on one listing entry: it is an object, its
      "diskImage" is an object with a string "name", its "id" is a number
      and, where the caller also prints it, its "diskImageId" is a number.
      A failed assertion panics. */
  function ParseDevice(j: Json, needDiskImageId: bool): (r: Result<DeviceInfo>)
    ensures !r.Err?
    ensures r.Ok? <==>
              && j.JObj? && Lookup(j.fields, "id").JNum?
              && Lookup(j.fields, "diskImage").JObj? && Lookup(Lookup(j.fields, "diskImage").fields, "name").JStr?
              && (needDiskImageId ==> Lookup(j.fields, "diskImageId").JNum?)
    ensures r.Ok? ==>
              && Lookup(j.fields, "id") == JNum(r.value.id)
              && Lookup(Lookup(j.fields, "diskImage").fields, "name") == JStr(r.value.name)
  {
    if !j.JObj? then Panic("block device is not an object")
    else
      var disk := Lookup(j.fields, "diskImage");
      if !disk.JObj? || !Lookup(disk.fields, "name").JStr? || !Lookup(j.fields, "id").JNum? then
        Panic("malformed block device")
      else if needDiskImageId && !Lookup(j.fields, "diskImageId").JNum? then
        Panic("diskImageId is not a number")
      else
        Ok(DeviceInfo(Lookup(j.fields, "id").n, Lookup(disk.fields, "name").s))
  }

  /** Parses a whole listing; one malformed entry makes the loop panic. */
  function ParseDevices(js: seq<Json>, needDiskImageId: bool): (r: Result<seq<DeviceInfo>>)
    ensures !r.Err?
    ensures r.Ok? <==> forall i :: 0 <= i < |js| ==> ParseDevice(js[i], needDiskImageId).Ok?
    ensures r.Ok? ==> |r.value| == |js| && forall i :: 0 <= i < |js| ==> ParseDevice(js[i], needDiskImageId) == Ok(r.value[i])
  {
    if |js| == 0 then Ok([])
    else
      var last := |js| - 1;
      match ParseDevices(js[..last], needDiskImageId)
      case Ok(ds) =>
        (match ParseDevice(js[last], needDiskImageId)
         case Ok(d) => Ok(ds + [d])
         case Err(e) => Err(e)
         case Panic(p) => Panic(p))
      case Err(e) => Err(e)
      case Panic(p) => Panic(p)
  }

  /** The ids of the devices a filter keeps, in listing order. */
  function KeptIds(ds: seq<DeviceInfo>, filter: DeviceFilter): seq<int>
  {
    if |ds| == 0 then []
    else
      var last := |ds| - 1;
      KeptIds(ds[..last], filter) + (if Skipped(filter, ds[last].name) then [] else [ds[last].id])
  }

  /** Filtering works piecewise: the kept ids keep their relative order. */
  lemma {:induction false} KeptIdsAppend(a: seq<DeviceInfo>, b: seq<DeviceInfo>, filter: DeviceFilter)
    ensures KeptIds(a + b, filter) == KeptIds(a, filter) + KeptIds(b, filter)
    decreases |b|
  {
    if |b| == 0 {
      assert a + b == a;
    } else {
      var last := |b| - 1;
      assert (a + b)[..|a + b| - 1] == a + b[..last];
      KeptIdsAppend(a, b[..last], filter);
    }
  }

  /** An id is kept exactly when some device with that id is not skipped. */
  lemma {:induction false} KeptIdsMembers(ds: seq<DeviceInfo>, filter: DeviceFilter, x: int)
    ensures x in KeptIds(ds, filter) <==> exists i :: 0 <= i < |ds| && ds[i].id == x && !Skipped(filter, ds[i].name)
  {
    if |ds| > 0 {
      var last := |ds| - 1;
      KeptIdsMembers(ds[..last], filter, x);
      if exists i :: 0 <= i < |ds| && ds[i].id == x && !Skipped(filter, ds[i].name) {
        var i :| 0 <= i < |ds| && ds[i].id == x && !Skipped(filter, ds[i].name);
        if i < last {
          assert ds[..last][i] == ds[i];
        }
      }
    }
  }

  /** The filter on a single device. */
  lemma KeptIdsSingle(d: DeviceInfo, filter: DeviceFilter)
    ensures KeptIds([d], filter) == if Skipped(filter, d.name) then [] else [d.id]
  {
    assert [d][..0] == [];
  }

  /** Nothing is dropped when no device is skipped. */
  lemma {:induction false} KeptIdsNoneSkipped(ds: seq<DeviceInfo>, filter: DeviceFilter)
    requires forall i :: 0 <= i < |ds| ==> !Skipped(filter, ds[i].name)
    ensures |KeptIds(ds, filter)| == |ds|
    ensures forall i :: 0 <= i < |ds| ==> KeptIds(ds, filter)[i] == ds[i].id
  {
    if |ds| > 0 {
      KeptIdsNoneSkipped(ds[..|ds| - 1], filter);
    }
  }

  /** findNonSwapBlockDeviceIds: the ids of the listed devices whose disk
      image name mentions neither SWAP nor METADATA, in listing order. */
  method FindNonSwapBlockDeviceIds(devices: seq<Json>) returns (r: Result<seq<int>>)
    ensures !r.Err?
    ensures r.Ok? <==> ParseDevices(devices, false).Ok?
    ensures r.Ok? ==> r.value == KeptIds(ParseDevices(devices, false).value, SkipSwapAndMetadata)
  {
    var ids: seq<int> := [];
    var i := 0;
    while i < |devices|
      invariant 0 <= i <= |devices|
      invariant ParseDevices(devices[..i], false).Ok?
      invariant ids == KeptIds(ParseDevices(devices[..i], false).value, SkipSwapAndMetadata)
    {
      assert devices[..i + 1][..i] == devices[..i];
      match ParseDevice(devices[i], false) {
        case Ok(d) =>
          if !Skipped(SkipSwapAndMetadata, d.name) {
            ids := ids + [d.id];
          }
        case Err(e) =>
          return Err(e);
        case Panic(p) =>
          return Panic(p);
      }
      i := i + 1;
    }
    assert devices[..i] == devices;
    return Ok(ids);
  }

  /* ---------------- image lookup by name ------------------------------- */

  /** An image listing entry that the lookup loop accepts: its "name" is the
      wanted name and its "globalIdentifier" is not nil. */
  predicate Usable(j: Json, name: string)
  {
    j.JObj? && Lookup(j.fields, "name") == JStr(name) && Lookup(j.fields, "globalIdentifier") != JNull
  }

  /** Every entry in [from, to) is an object the loop looked at and passed. */
  ghost predicate PassedOver(images: seq<Json>, name: string, from: int, to: int)
  {
    forall k :: from <= k < to && 0 <= k < |images| ==> images[k].JObj? && !Usable(images[k], name)
  }

  /** The lookup loop from position `from` on: `Some(id)` for the first
      usable entry, `None` when there is none; a non-object entry, or a
      usable entry whose identifier is not a string, panics. */
  function ScanImages(images: seq<Json>, name: string, from: nat): (r: Result<Option<string>>)
    requires from <= |images|
    ensures !r.Err?
    ensures r == Ok(None) <==> PassedOver(images, name, from, |images|)
    ensures r.Ok? && r.value.Some? ==>
              exists i :: from <= i < |images| && PassedOver(images, name, from, i) && Usable(images[i], name)
                          && Lookup(images[i].fields, "globalIdentifier") == JStr(r.value.value)
    decreases |images| - from
  {
    if from == |images| then Ok(None)
    else
      var image := images[from];
      if !image.JObj? then Panic("image is not an object")
      else if Usable(image, name) then
        (match Lookup(image.fields, "globalIdentifier")
         case JStr(id) => Ok(Some(id))
         case _ => Panic("globalIdentifier is not a string"))
      else
        ScanImages(images, name, from + 1)
  }

  /** The first usable entry, when its identifier is a string, is the one
      the loop stops at. */
  lemma {:induction false} ScanFindsFirst(images: seq<Json>, name: string, from: nat, i: nat, id: string)
    requires from <= i < |images|
    requires PassedOver(images, name, from, i) && Usable(images[i], name)
    requires Lookup(images[i].fields, "globalIdentifier") == JStr(id)
    ensures ScanImages(images, name, from) == Ok(Some(id))
    decreases i - from
  {
    if from < i {
      SkipPassedOver(images, name, from);
      ScanFindsFirst(images, name, from + 1, i, id);
    }
  }

  /** An entry the loop passes over leaves the result to the rest. */
  lemma SkipPassedOver(images: seq<Json>, name: string, from: nat)
    requires from < |images| && images[from].JObj? && !Usable(images[from], name)
    ensures ScanImages(images, name, from) == ScanImages(images, name, from + 1)
  {
  }

  /** findImageIdByName: the identifier of the first listed image with the
      wanted name and a non-nil identifier; an empty identifier, or no such
      image, is the error "No image found". */
  function FindImageIdByName(listing: Result<seq<Json>>, name: string): (r: Result<string>)
    ensures listing.Err? ==> r == Err(listing.error)
    ensures listing.Ok? && r.Err? ==> r.error == NoImageFound(name)
    ensures r.Ok? ==>
              && r.value != "" && listing.Ok?
              && exists i :: 0 <= i < |listing.value| && PassedOver(listing.value, name, 0, i) && Usable(listing.value[i], name)
                             && Lookup(listing.value[i].fields, "globalIdentifier") == JStr(r.value)
    ensures listing.Ok? && PassedOver(listing.value, name, 0, |listing.value|) ==> r == Err(NoImageFound(name))
    ensures listing.Ok? && ScanImages(listing.value, name, 0) == Ok(Some("")) ==> r == Err(NoImageFound(name))
    ensures r.Panic? <==> listing.Panic? || (listing.Ok? && ScanImages(listing.value, name, 0).Panic?)
  {
    match listing
    case Err(e) => Err(e)
    case Panic(p) => Panic(p)
    case Ok(images) =>
      match ScanImages(images, name, 0)
      case Ok(found) =>
        if found.None? || found.value == "" then Err(NoImageFound(name)) else Ok(found.value)
      case Err(e) => Err(e)
      case Panic(p) => Panic(p)
  }

  /** The lookup succeeds with the first usable image's identifier whenever
      that identifier is a non-empty string. */
  lemma FindImageIdOfFirstUsable(images: seq<Json>, name: string, i: nat, id: string)
    requires i < |images| && PassedOver(images, name, 0, i) && Usable(images[i], name)
    requires Lookup(images[i].fields, "globalIdentifier") == JStr(id) && id != ""
    ensures FindImageIdByName(Ok(images), name) == Ok(id)
  {
    ScanFindsFirst(images, name, 0, i, id);
  }

  /* ---------------- instance readiness --------------------------------- */

  /** The power-state reply can be read: a first value that is an object
      with a string "keyName". */
  predicate PowerReadable(power: seq<Json>)
  {
    |power| > 0 && power[0].JObj? && Lookup(power[0].fields, "keyName").JStr?
  }

  /** isInstanceReady: ready when the power state's keyName is RUNNING and
      the active transaction is nil. A failed query is swallowed and reads
      as "not ready"; only a malformed reply (a panic) escapes. */
  function IsInstanceReady(power: Reply, transaction: Reply): (r: Result<bool>)
    ensures !r.Err?
    ensures r == Ok(true) <==>
              && DoHttpRequest(power).Ok? && PowerReadable(DoHttpRequest(power).value)
              && Lookup(DoHttpRequest(power).value[0].fields, "keyName") == JStr("RUNNING")
              && DoHttpRequest(transaction).Ok? && |DoHttpRequest(transaction).value| > 0
              && DoHttpRequest(transaction).value[0] == JNull
    ensures DoHttpRequest(power).Err? ==> r == Ok(false)
    ensures DoHttpRequest(power).Ok? && PowerReadable(DoHttpRequest(power).value) && DoHttpRequest(transaction).Err? ==>
              r == Ok(false)
    ensures r.Panic? <==>
              || DoHttpRequest(power).Panic?
              || (DoHttpRequest(power).Ok? && !PowerReadable(DoHttpRequest(power).value))
              || (DoHttpRequest(power).Ok? && PowerReadable(DoHttpRequest(power).value)
                  && (DoHttpRequest(transaction).Panic?
                      || (DoHttpRequest(transaction).Ok? && |DoHttpRequest(transaction).value| == 0)))
  {
    match DoHttpRequest(power)
    case Err(_) => Ok(false)
    case Panic(p) => Panic(p)
    case Ok(powerData) =>
      if !PowerReadable(powerData) then Panic("power state is not readable")
      else
        var isPowerOn := Lookup(powerData[0].fields, "keyName") == JStr("RUNNING");
        match DoHttpRequest(transaction)
        case Err(_) => Ok(false)
        case Panic(p) => Panic(p)
        case Ok(transactionData) =>
          if |transactionData| == 0 then Panic("no active transaction value")
          else Ok(isPowerOn && transactionData[0] == JNull)
  }

  /** Every poll before position `i` answered "not ready". */
  ghost predicate NotReadyBefore(polls: seq<Result<bool>>, i: int)
  {
    forall k :: 0 <= k < i && k < |polls| ==> polls[k] == Ok(false)
  }

  /** waitForInstanceReady, with the deadline abstracted: `polls` are the
      readiness answers obtained before the timer fires. The wait succeeds
      at the first "ready", stops at the first error or panic, and
      otherwise times out. */
  method WaitForInstanceReady(polls: seq<Result<bool>>) returns (r: Result<()>)
    ensures r.Ok? <==> exists i :: 0 <= i < |polls| && polls[i] == Ok(true) && NotReadyBefore(polls, i)
    ensures NotReadyBefore(polls, |polls|) ==> r == Err(Timeout)
    ensures r.Err? && r.error != Timeout ==>
              exists i :: 0 <= i < |polls| && polls[i] == Err(r.error) && NotReadyBefore(polls, i)
    ensures (forall i :: 0 <= i < |polls| ==> !polls[i].Err?) && r.Err? ==> r.error == Timeout
    ensures r.Panic? <==> exists i :: 0 <= i < |polls| && polls[i].Panic? && NotReadyBefore(polls, i)
  {
    var i := 0;
    while i < |polls|
      invariant 0 <= i <= |polls|
      invariant NotReadyBefore(polls, i)
    {
      match polls[i] {
        case Ok(ready) =>
          if ready {
            return Ok(());
          }
        case Err(e) =>
          return Err(e);
        case Panic(p) =>
          return Panic(p);
      }
      i := i + 1;
    }
    return Err(Timeout);
  }
}

=== FILE: client_request.dfy ===
/** How `SoftlayerClient.CreateInstance` turns an instance definition into
    the request body it posts to SoftLayer_Virtual_Guest/createObject
    (builder/softlayer/client.go:207-264). */
module ClientRequest {
  import opened Api
  import Text

  /** The caller's instance definition (InstanceType). Its two flags are
      carried but ignored: the request always asks for hourly billing and a
      SAN (non-local) disk. */
  datatype InstanceType = InstanceType(
    hostName: string,
    domain: string,
    datacenter: string,
    cpus: int,
    memory: int,
    hourlyBilling: bool,
    localDisk: bool,
    privateNetworkOnly: bool,
    diskCapacities: seq<int>,
    networkSpeed: int,
    provisioningSshKeyId: int,
    baseImageId: string,
    baseOsCode: string)

  datatype BlockDevice = BlockDevice(device: string, capacity: int)

  /** The posted request (InstanceReq). An absent optional part is `None`,
      `""` or `[]`, as `omitempty` drops it from the JSON body. */
  datatype InstanceReq = InstanceReq(
    hostName: string,
    domain: string,
    datacenter: string,
    cpus: int,
    memory: int,
    hourlyBilling: bool,
    localDisk: bool,
    privateNetworkOnly: bool,
    networkSpeeds: seq<int>,
    templateGroup: Option<string>,
    blockDevices: seq<BlockDevice>,
    osReferenceCode: string,
    sshKeys: seq<int>)

  /** The characters SoftLayer accepts in a hostname or domain. */
  predicate IsNameChar(c: char)
  {
    || ('A' <= c <= 'Z')
    || ('a' <= c <= 'z')
    || ('0' <= c <= '9')
    || c == '-'
    || c == '.'
  }

  /** Deletes every run of characters outside [A-Za-z0-9.-], as
      `ReplaceAllString(s, "")` with the pattern `[^A-Za-z0-9\-\.]+` does. */
  function Sanitize(s: string): (r: string)
    ensures forall i :: 0 <= i < |r| ==> IsNameChar(r[i])
    ensures |r| <= |s|
    ensures forall c :: multiset(r)[c] == if IsNameChar(c) then multiset(s)[c] else 0
  {
    if |s| == 0 then ""
    else
      assert s == [s[0]] + s[1..];
      (if IsNameChar(s[0]) then [s[0]] else "") + Sanitize(s[1..])
  }

  /** A name made only of accepted characters passes unchanged. */
  lemma {:induction false} SanitizeKeepsValid(s: string)
    requires forall i :: 0 <= i < |s| ==> IsNameChar(s[i])
    ensures Sanitize(s) == s
  {
    if |s| > 0 {
      SanitizeKeepsValid(s[1..]);
    }
  }

  /** Sanitising twice is the same as sanitising once. */
  lemma SanitizeIdempotent(s: string)
    ensures Sanitize(Sanitize(s)) == Sanitize(s)
  {
    SanitizeKeepsValid(Sanitize(s));
  }

  /** Sanitising works piecewise, so the kept characters stay in their
      original order. */
  lemma {:induction false} SanitizeAppend(a: string, b: string)
    ensures Sanitize(a + b) == Sanitize(a) + Sanitize(b)
  {
    if |a| > 0 {
      assert (a + b)[1..] == a[1..] + b;
      SanitizeAppend(a[1..], b);
    } else {
      assert a + b == b;
    }
  }

  /** The device slot of the index-th disk: "0" for the first disk, then
      index + 1, because slot "1" belongs to the swap disk. */
  function DeviceName(index: nat): string
  {
    if index == 0 then "0" else Text.Itoa(index + 1)
  }

  /** No disk is ever placed in the swap slot "1". */
  lemma DeviceNameNotSwap(index: nat)
    ensures DeviceName(index) != "1"
  {
    if index > 0 {
      Text.ParseItoa(index + 1);
      assert Text.ParseDecimal("1") == 1 by {
        assert "1"[..0] == "";
      }
    }
  }

  /** Different disks get different slots. */
  lemma DeviceNamesDistinct(i: nat, j: nat)
    ensures DeviceName(i) == DeviceName(j) ==> i == j
  {
    if i == 0 && j > 0 {
      Text.ParseItoa(j + 1);
      assert Text.ParseDecimal("0") == 0 by {
        assert "0"[..0] == "";
      }
    } else if j == 0 && i > 0 {
      Text.ParseItoa(i + 1);
      assert Text.ParseDecimal("0") == 0 by {
        assert "0"[..0] == "";
      }
    } else if i > 0 && j > 0 {
      Text.ItoaInjective(i + 1, j + 1);
    }
  }

  /** The block devices appended, one per disk capacity, by the loop over
      DiskCapacities. */
  function BuildBlockDevices(capacities: seq<int>): (ds: seq<BlockDevice>)
    ensures |ds| == |capacities|
    ensures forall i :: 0 <= i < |ds| ==> ds[i].device == DeviceName(i) && ds[i].capacity == capacities[i]
  {
    if |capacities| == 0 then []
    else
      var last := |capacities| - 1;
      BuildBlockDevices(capacities[..last]) + [BlockDevice(DeviceName(last), capacities[last])]
  }

  /** The devices of one request never use the swap slot and never share a
      slot. */
  lemma BlockDeviceSlots(capacities: seq<int>)
    ensures forall i :: 0 <= i < |capacities| ==> BuildBlockDevices(capacities)[i].device != "1"
    ensures forall i, j :: 0 <= i < j < |capacities| ==>
              BuildBlockDevices(capacities)[i].device != BuildBlockDevices(capacities)[j].device
  {
    var ds := BuildBlockDevices(capacities);
    forall i | 0 <= i < |capacities|
      ensures ds[i].device != "1"
    {
      DeviceNameNotSwap(i);
    }
    forall i, j | 0 <= i < j < |capacities|
      ensures ds[i].device != ds[j].device
    {
      DeviceNamesDistinct(i, j);
    }
  }

  /** The request CreateInstance posts for an instance definition. */
  function BuildInstanceRequest(t: InstanceType): (req: InstanceReq)
    ensures forall i :: 0 <= i < |req.hostName| ==> IsNameChar(req.hostName[i])
    ensures forall i :: 0 <= i < |req.domain| ==> IsNameChar(req.domain[i])
    ensures req.hostName == Sanitize(t.hostName) && req.domain == Sanitize(t.domain)
    ensures req.hourlyBilling && !req.localDisk
    ensures req.sshKeys == [t.provisioningSshKeyId] <==> t.provisioningSshKeyId != 0
    ensures t.provisioningSshKeyId == 0 ==> req.sshKeys == []
    ensures req.templateGroup.Some? <==> t.baseImageId != ""
    ensures t.baseImageId != "" ==>
              req.templateGroup == Some(t.baseImageId) && req.osReferenceCode == "" && req.blockDevices == []
    ensures t.baseImageId == "" ==>
              && req.osReferenceCode == t.baseOsCode
              && |req.blockDevices| == |t.diskCapacities|
              && forall i :: 0 <= i < |req.blockDevices| ==>
                   && req.blockDevices[i].capacity == t.diskCapacities[i]
                   && req.blockDevices[i].device == DeviceName(i)
                   && req.blockDevices[i].device != "1"
    ensures t.baseImageId == "" ==>
              forall i, j :: 0 <= i < j < |req.blockDevices| ==> req.blockDevices[i].device != req.blockDevices[j].device
    ensures req.networkSpeeds == [t.networkSpeed]
    ensures req.datacenter == t.datacenter && req.cpus == t.cpus && req.memory == t.memory
    ensures req.privateNetworkOnly == t.privateNetworkOnly
  {
    BlockDeviceSlots(t.diskCapacities);
    var base := InstanceReq(
      Sanitize(t.hostName), Sanitize(t.domain), t.datacenter, t.cpus, t.memory,
      true, false, t.privateNetworkOnly, [t.networkSpeed],
      None, [], "", if t.provisioningSshKeyId != 0 then [t.provisioningSshKeyId] else []);
    if t.baseImageId != "" then
      base.(templateGroup := Some(t.baseImageId))
    else
      base.(osReferenceCode := t.baseOsCode, blockDevices := BuildBlockDevices(t.diskCapacities))
  }
}

=== FILE: client_test.dfy ===
/** The cases of builder/softlayer/client_test.go, stated about the model's
    device parser and filter, and the disagreement between the two device
    filters the source uses. */
module ClientTest {
  import opened Api
  import opened Client
  import Json
  import Text

  /** A name with neither an upper-case S nor an upper-case M is kept by
      both filters. */
  lemma PlainNameKept(name: string, filter: DeviceFilter)
    requires 'S' !in name && 'M' !in name
    ensures !Skipped(filter, name)
  {
    Text.AbsentFirstChar(name, "SWAP");
    Text.AbsentFirstChar(name, "METADATA");
  }

  /** A name with SWAP at a known position is skipped by both filters. */
  lemma SwapNameSkipped(name: string, at: nat, filter: DeviceFilter)
    requires Text.OccursAt(name, "SWAP", at)
    ensures Skipped(filter, name)
  {
    Text.OccursContains(name, "SWAP", at);
  }

  /** The filter over two devices, from what it does to each. */
  lemma KeptIdsPair(a: DeviceInfo, b: DeviceInfo, filter: DeviceFilter)
    ensures KeptIds([a, b], filter) ==
              (if Skipped(filter, a.name) then [] else [a.id]) + (if Skipped(filter, b.name) then [] else [b.id])
  {
    KeptIdsSingle(a, filter);
    KeptIdsSingle(b, filter);
    KeptIdsAppend([a], [b], filter);
  }

  /** A listing entry shaped like the test's: the device slot, the device
      id, and the disk image's name and id. */
  function TestDevice(device: string, id: int, name: string, diskId: int): Json.Json
  {
    Json.JObj(map["device" := Json.JStr(device), "id" := Json.JNum(id),
                  "diskImage" := Json.JObj(map["name" := Json.JStr(name), "id" := Json.JNum(diskId)])])
  }

  /** Such an entry parses to its device id and disk image name. */
  lemma ParseTestDevice(device: string, id: int, name: string, diskId: int)
    ensures ParseDevice(TestDevice(device, id, name, diskId), false) == Ok(DeviceInfo(id, name))
  {
  }

  /** Two such entries parse pointwise, and the filter treats each alone. */
  lemma TestPair(id0: int, name0: string, id1: int, name1: string, filter: DeviceFilter)
    ensures var js := [TestDevice("0", id0, name0, id0 + 1), TestDevice("1", id1, name1, id1 + 1)];
            && ParseDevices(js, false) == Ok([DeviceInfo(id0, name0), DeviceInfo(id1, name1)])
            && KeptIds(ParseDevices(js, false).value, filter) ==
                 (if Skipped(filter, name0) then [] else [id0]) + (if Skipped(filter, name1) then [] else [id1])
  {
    var a, b := TestDevice("0", id0, name0, id0 + 1), TestDevice("1", id1, name1, id1 + 1);
    ParseTestDevice("0", id0, name0, id0 + 1);
    ParseTestDevice("1", id1, name1, id1 + 1);
    var js := [a, b];
    assert forall i :: 0 <= i < |js| ==> ParseDevice(js[i], false).Ok?;
    var parsed := ParseDevices(js, false).value;
    assert parsed[0] == DeviceInfo(id0, name0) && parsed[1] == DeviceInfo(id1, name1);
    assert parsed == [DeviceInfo(id0, name0), DeviceInfo(id1, name1)];
    KeptIdsPair(DeviceInfo(id0, name0), DeviceInfo(id1, name1), filter);
  }

  /* The three cases below take the disk names as parameters pinned by
     their requires, so that the string facts are proved once, by
     PlainNameKept and SwapNameSkipped, rather than by unfolding the
     filter over each literal. */

  /** A root disk and a swap disk: only the root disk is kept. */
  lemma RootAndSwap(root: string, swap: string)
    requires root == "root-device" && swap == "SWAP-device"
    ensures var js := [TestDevice("0", 11, root, 12), TestDevice("1", 21, swap, 22)];
            && ParseDevices(js, false) == Ok([DeviceInfo(11, root), DeviceInfo(21, swap)])
            && KeptIds(ParseDevices(js, false).value, SkipSwapAndMetadata) == [11]
  {
    TestPair(11, root, 21, swap, SkipSwapAndMetadata);
    PlainNameKept(root, SkipSwapAndMetadata);
    SwapNameSkipped(swap, 0, SkipSwapAndMetadata);
  }

  /** Two swap disks: nothing is kept. */
  lemma AllSwap(first: string, swap: string)
    requires first == "first-SWAP-device" && swap == "SWAP-device"
    ensures var js := [TestDevice("0", 11, first, 12), TestDevice("1", 21, swap, 22)];
            && ParseDevices(js, false) == Ok([DeviceInfo(11, first), DeviceInfo(21, swap)])
            && KeptIds(ParseDevices(js, false).value, SkipSwapAndMetadata) == []
  {
    assert Skipped(SkipSwapAndMetadata, first) by {
      assert first[6..10] == "SWAP";
      SwapNameSkipped(first, 6, SkipSwapAndMetadata);
    }
    assert Skipped(SkipSwapAndMetadata, swap) by {
      assert swap[0..4] == "SWAP";
      SwapNameSkipped(swap, 0, SkipSwapAndMetadata);
    }
    TestPair(11, first, 21, swap, SkipSwapAndMetadata);
  }

  /** No swap disk: both are kept, in order. */
  lemma NoSwap(first: string, second: string)
    requires first == "first-device" && second == "second-device"
    ensures var js := [TestDevice("0", 11, first, 12), TestDevice("1", 21, second, 22)];
            && ParseDevices(js, false) == Ok([DeviceInfo(11, first), DeviceInfo(21, second)])
            && KeptIds(ParseDevices(js, false).value, SkipSwapAndMetadata) == [11, 21]
  {
    assert !Skipped(SkipSwapAndMetadata, first) by {
      PlainNameKept(first, SkipSwapAndMetadata);
    }
    assert !Skipped(SkipSwapAndMetadata, second) by {
      PlainNameKept(second, SkipSwapAndMetadata);
    }
    TestPair(11, first, 21, second, SkipSwapAndMetadata);
    assert [11] + [21] == [11, 21];
  }

  /** A metadata disk is dropped by findNonSwapBlockDeviceIds but kept by the
      capture step's own SWAP-only loop: the two filters disagree. */
  lemma MetadataFiltersDisagree()
    ensures KeptIds([DeviceInfo(7, "METADATA-x")], SkipSwapAndMetadata) == []
    ensures KeptIds([DeviceInfo(7, "METADATA-x")], SkipSwap) == [7]
  {
    var meta := DeviceInfo(7, "METADATA-x");
    Text.AbsentFirstChar(meta.name, "SWAP");
    Text.OccursContains(meta.name, "METADATA", 0);
    KeptIdsSingle(meta, SkipSwapAndMetadata);
    KeptIdsSingle(meta, SkipSwap);
  }
}

=== FILE: json.dfy ===
/** A decoded JSON value, as Go's encoding/json produces it when unmarshalling
    into an `interface{}`: nil, bool, float64, string, []interface{} or
    map[string]interface{}. Numbers are modelled as integers, because the
    only numbers this builder reads are SoftLayer object ids. */
module Json {

  datatype Json =
    | JNull
    | JBool(b: bool)
    | JNum(n: int)
    | JStr(s: string)
    | JArr(items: seq<Json>)
    | JObj(fields: map<string, Json>)

  /** Go's `obj[key]` on a decoded object: a missing key and an explicit
      JSON null both read back as nil. */
  function Lookup(fields: map<string, Json>, key: string): Json
  {
    if key in fields then fields[key] else JNull
  }
}

=== FILE: pipeline.dfy ===
/** The build pipeline as the multistep runner drives it: create the SSH
    key, create the instance, wait for it, capture the image; stop at the
    first step that halts; then run Cleanup on every step that ran, last
    one first. The runner itself is library code outside this repository,
    so this module is a model of its behaviour, not of source text. The
    runner defers each step's Cleanup once its Run returns, so a panic in a
    step's Run still unwinds through the Cleanups of the steps before it; a
    panic in the readiness poller's goroutine ends the process at once. */
module Pipeline {
  import opened Api
  import opened Build
  import Client
  import Key = StepCreateSshKey
  import Inst = StepCreateInstance
  import Wait = StepWaitforInstance
  import Capture = StepCaptureImage

  /** Every remote and local outcome the four steps and their cleanups
      consume, in the order the steps meet them. */
  datatype Outcomes = Outcomes(
    readFile: Result<string>,
    generated: Result<string>,
    publicKey: Result<string>,
    upload: Reply,
    create: Reply,
    firstWait: Result<()>,
    devices: Reply,
    capture: Reply,
    captureWait: Result<()>,
    images: Reply,
    cleanupWait: Result<()>,
    instanceDelete: RawResponse,
    keyDelete: RawResponse)

  /** How a build ended: how many steps ran, the last step's action, the
      world after the forward pass, the cleanup pass, and the fields of the
      two steps that own remote resources. */
  datatype Outcome = Outcome(ran: nat, last: Action, afterRun: World, cleaned: Cleaned,
                             key: Key.KeyStep, inst: Inst.InstanceStep)

  /** Chain two cleanups: after a panic the second never runs. */
  function Then(first: Cleaned, second: Cleaned): Cleaned
  {
    if first.crashed then first
    else Cleaned(second.world, first.calls + second.calls, first.reported + second.reported, second.crashed)
  }

  /** The instance the instance step may have to delete during cleanup. */
  predicate OwnsInstance(ran: nat, inst: Inst.InstanceStep)
  {
    ran >= 2 && inst.instanceId != ""
  }

  /** The reverse pass over the first `ran` steps: capture, wait, instance,
      key. Capture and wait have nothing to undo. */
  function Unwind(ran: nat, key: Key.KeyStep, inst: Inst.InstanceStep, w: World,
                  config: Config, o: Outcomes): (r: Cleaned)
    requires 1 <= ran <= 4
    ensures r.world.bag == w.bag
    ensures r.crashed <==> OwnsInstance(ran, inst) && o.cleanupWait.Panic?
    ensures !r.crashed ==>
              r.world.live ==
                w.live
                - (if OwnsInstance(ran, inst) && o.instanceDelete == RawOk("true") then {Instance(inst.instanceId)} else {})
                - (if key.keyId != 0 && o.keyDelete == RawOk("true") then {SshKey(key.keyId)} else {})
    ensures !OwnsInstance(ran, inst) ==>
              r.calls == (if key.keyId != 0 then [Delete(SshKey(key.keyId))] else [])
    ensures OwnsInstance(ran, inst) && key.keyId != 0 && !o.cleanupWait.Panic? ==>
              r.calls == [WaitReady(inst.instanceId, config.stateTimeout),
                          Delete(Instance(inst.instanceId)), Delete(SshKey(key.keyId))]
  {
    var c4 := if ran >= 4 then Capture.Cleanup(w) else Untouched(w);
    var c3 := if ran >= 3 then Wait.Cleanup(c4.world) else Untouched(c4.world);
    var c2 := if ran >= 2 then Inst.Cleanup(inst, c3.world, config, o.cleanupWait, o.instanceDelete)
              else Untouched(c3.world);
    var c1 := Key.Cleanup(key, c2.world, o.keyDelete);
    Then(Then(Then(c4, c3), c2), c1)
  }

  /** Stop after `ran` steps with action `last` and unwind. */
  function Finish(ran: nat, last: Action, key: Key.KeyStep, inst: Inst.InstanceStep, w: World,
                  config: Config, o: Outcomes): Outcome
    requires 1 <= ran <= 4
  {
    Outcome(ran, last, w, Unwind(ran, key, inst, w, config, o), key, inst)
  }

  /** What runs after a panic in step `ran`: for a panic in the runner's
      goroutine, the deferred Cleanups of the steps before it, last one
      first; for a panic in the poller's goroutine, nothing. Either way the
      process then dies. */
  function PanicUnwind(ran: nat, last: Action, key: Key.KeyStep, inst: Inst.InstanceStep, w: World,
                       config: Config, o: Outcomes): (r: Cleaned)
    requires 1 <= ran <= 4
    ensures r.crashed && r.world.bag == w.bag
    ensures last == Abort || ran == 1 ==> r.calls == [] && r.world == w
    ensures last != Abort && ran > 1 ==>
              var c := Unwind(ran - 1, key, inst, w, config, o);
              r.calls == c.calls && r.world == c.world && r.reported == c.reported
  {
    if last == Abort || ran == 1 then Cleaned(w, [], [], true)
    else Unwind(ran - 1, key, inst, w, config, o).(crashed := true)
  }

  /** A panic in step `ran`. */
  function Crashed(ran: nat, last: Action, key: Key.KeyStep, inst: Inst.InstanceStep, w: World,
                   config: Config, o: Outcomes): Outcome
    requires 1 <= ran <= 4
  {
    Outcome(ran, last, w, PanicUnwind(ran, last, key, inst, w, config, o), key, inst)
  }

  /** The key a key step leaves behind for its Cleanup. */
  function KeyAdded(key: Key.KeyStep): set<Resource>
  {
    if key.keyId != 0 then {SshKey(key.keyId)} else {}
  }

  /** The error a build that halted in step `ran` (2 to 4) records: the
      instance step's request error, the wrapped wait error, or one of the
      capture step's errors. A halt in step 1 is described by the key
      step's own IsKeyError. */
  predicate HaltCause(ran: nat, e: Error, config: Config, o: Outcomes)
  {
    if ran == 2 then Client.SingleObject(o.create) == Err(e)
    else if ran == 3 then o.firstWait.Err? && e == Wrapped(Wait.ActiveFailed, o.firstWait.error)
    else ran == 4 && Capture.IsCaptureError(e, config.imageName)
  }

  /** One build from the world `w0`, with the configured private key file
      `keyFile` ("" to generate a key). */
  function RunBuild(config: Config, keyFile: string, w0: World, o: Outcomes): (r: Outcome)
    ensures 1 <= r.ran <= 4
    ensures r.last == Continue ==>
              && r.ran == 4
              && r.afterRun.bag.imageId.Some?
              && r.afterRun.bag.error == w0.bag.error
    ensures r.last == Halt ==> r.afterRun.bag.error.Some?
    ensures r.last == Halt && r.ran == 1 ==>
              Key.IsKeyError(r.afterRun.bag.error.value, Key.KeyStep(0, keyFile), o.readFile, o.generated, o.publicKey, o.upload)
    ensures r.last == Halt && r.ran > 1 ==> HaltCause(r.ran, r.afterRun.bag.error.value, config, o)
    ensures r.last == Crash || r.last == Abort ==>
              r.cleaned == PanicUnwind(r.ran, r.last, r.key, r.inst, r.afterRun, config, o)
    ensures r.last == Abort ==> r.cleaned.crashed && r.cleaned.calls == []
    ensures r.cleaned.world.bag == r.afterRun.bag
    ensures r.ran == 1 ==> r.cleaned.calls == []
  {
    var k := Key.Run(Key.KeyStep(0, keyFile), w0, o.readFile, o.generated, o.publicKey, o.upload);
    if k.action == Crash || k.action == Abort then Crashed(1, k.action, k.step, Inst.InstanceStep(""), k.world, config, o)
    else if k.action == Halt then Finish(1, Halt, k.step, Inst.InstanceStep(""), k.world, config, o)
    else FromInstance(config, k.step, k.world, o)
  }

  /** The pass from the instance step on, once the key step continued. */
  function FromInstance(config: Config, key: Key.KeyStep, w: World, o: Outcomes): (r: Outcome)
    ensures 2 <= r.ran <= 4
    ensures r.last == Continue ==>
              && r.ran == 4
              && r.afterRun.bag.imageId.Some?
              && r.afterRun.bag.error == w.bag.error
    ensures r.last == Halt ==> r.afterRun.bag.error.Some? && HaltCause(r.ran, r.afterRun.bag.error.value, config, o)
    ensures r.last == Crash || r.last == Abort ==>
              r.cleaned == PanicUnwind(r.ran, r.last, key, r.inst, r.afterRun, config, o)
    ensures r.key == key
    ensures r.last == Continue || r.last == Halt ==> r.cleaned == Unwind(r.ran, key, r.inst, r.afterRun, config, o)
    ensures r.ran == 2 ==> r.inst.instanceId == ""
    ensures r.last != Crash && r.ran == 2 ==> r.afterRun.live == w.live
    ensures r.last != Crash && r.ran > 2 ==> r.afterRun.live == w.live + {Instance(r.inst.instanceId)}
    ensures r.ran > 2 ==>
              && Client.SingleObject(o.create).Ok?
              && Json.Lookup(Client.SingleObject(o.create).value, "globalIdentifier") == Json.JStr(r.inst.instanceId)
  {
    var i := Inst.Run(Inst.InstanceStep(""), w, config, o.create);
    if i.action == Crash || i.action == Abort then Crashed(2, i.action, key, i.step, i.world, config, o)
    else if i.action == Halt then Finish(2, Halt, key, i.step, i.world, config, o)
    else FromWait(config, key, i.step, i.world, o)
  }

  /** The pass from the wait step on, once the instance exists. */
  function FromWait(config: Config, key: Key.KeyStep, inst: Inst.InstanceStep, w: World, o: Outcomes): (r: Outcome)
    ensures 3 <= r.ran <= 4
    ensures r.last == Continue ==>
              && r.ran == 4
              && r.afterRun.bag.imageId.Some?
              && r.afterRun.bag.error == w.bag.error
    ensures r.last == Halt ==> r.afterRun.bag.error.Some? && HaltCause(r.ran, r.afterRun.bag.error.value, config, o)
    ensures r.last == Crash || r.last == Abort ==>
              r.cleaned == PanicUnwind(r.ran, r.last, key, inst, r.afterRun, config, o)
    ensures r.key == key && r.inst == inst
    ensures r.afterRun.live == w.live
    ensures r.last == Continue || r.last == Halt ==> r.cleaned == Unwind(r.ran, key, inst, r.afterRun, config, o)
  {
    var wt := Wait.Run(w, config, o.firstWait);
    if wt.action == Crash || wt.action == Abort then Crashed(3, wt.action, key, inst, wt.world, config, o)
    else if wt.action == Halt then Finish(3, Halt, key, inst, wt.world, config, o)
    else
      var c := Capture.Run(wt.world, config, o.devices, o.capture, o.captureWait, o.images);
      if c.action == Crash || c.action == Abort then Crashed(4, c.action, key, inst, c.world, config, o)
      else Finish(4, c.action, key, inst, c.world, config, o)
  }

  /** What the forward pass leaves for the reverse one: the uploaded key,
      the created instance (only once the instance step continued), and a
      cleanup that unwinds exactly the steps that ran. A key id of 0 would
      be live but invisible to the key step's Cleanup, so it is excluded. */
  lemma {:induction false} RunBuildLeaves(config: Config, keyFile: string, w0: World, o: Outcomes)
    requires Client.UploadSshKey(o.upload).Ok? ==> Client.UploadSshKey(o.upload).value != 0
    ensures var r := RunBuild(config, keyFile, w0, o);
            && (r.key.keyId != 0 ==> Client.UploadSshKey(o.upload) == Ok(r.key.keyId))
            && (r.ran <= 2 ==> r.inst.instanceId == "")
            && (r.ran > 2 ==>
                  && Client.SingleObject(o.create).Ok?
                  && Json.Lookup(Client.SingleObject(o.create).value, "globalIdentifier") == Json.JStr(r.inst.instanceId))
            && (r.last == Continue || r.last == Halt ==> r.cleaned == Unwind(r.ran, r.key, r.inst, r.afterRun, config, o))
            && (r.last != Crash ==>
                  r.afterRun.live == w0.live + KeyAdded(r.key) + (if r.ran > 2 then {Instance(r.inst.instanceId)} else {}))
  {
    var k := Key.Run(Key.KeyStep(0, keyFile), w0, o.readFile, o.generated, o.publicKey, o.upload);
    if k.action == Continue {
      assert k.world.live == w0.live + KeyAdded(k.step);
      assert k.step.keyId != 0 ==> Client.UploadSshKey(o.upload) == Ok(k.step.keyId);
    } else {
      assert k.step.keyId == 0;
    }
  }

  /** The remote ids the provider hands out are non-zero / non-empty and
      new: neither the uploaded key nor the created instance was already
      live before the build. */
  predicate FreshIds(w0: World, o: Outcomes)
  {
    && (Client.UploadSshKey(o.upload).Ok? ==>
          Client.UploadSshKey(o.upload).value != 0 && SshKey(Client.UploadSshKey(o.upload).value) !in w0.live)
    && (Client.SingleObject(o.create).Ok? && Json.Lookup(Client.SingleObject(o.create).value, "globalIdentifier").JStr? ==>
          var id := Json.Lookup(Client.SingleObject(o.create).value, "globalIdentifier").s;
          id != "" && Instance(id) !in w0.live)
  }

  /** Unwinding removes exactly what the build added, when both deletions
      are acknowledged. */
  lemma UnwindRestores(ran: nat, key: Key.KeyStep, inst: Inst.InstanceStep, w: World, w0: World,
                       config: Config, o: Outcomes)
    requires 1 <= ran <= 4
    requires o.instanceDelete == RawOk("true") && o.keyDelete == RawOk("true") && !o.cleanupWait.Panic?
    requires key.keyId != 0 ==> SshKey(key.keyId) !in w0.live
    requires OwnsInstance(ran, inst) ==> Instance(inst.instanceId) !in w0.live
    requires w.live == w0.live
                       + (if key.keyId != 0 then {SshKey(key.keyId)} else {})
                       + (if OwnsInstance(ran, inst) then {Instance(inst.instanceId)} else {})
    ensures Unwind(ran, key, inst, w, config, o).world.live == w0.live
  {
  }

  /** The saga guarantee: whichever step halts, and also when every step
      succeeds, a build whose cleanup deletions are acknowledged leaves
      exactly the remote keys and instances that existed before it. */
  lemma {:induction false} NoLeakWhenCleanupAcknowledged(config: Config, keyFile: string, w0: World, o: Outcomes)
    requires FreshIds(w0, o)
    requires o.instanceDelete == RawOk("true") && o.keyDelete == RawOk("true") && !o.cleanupWait.Panic?
    ensures var r := RunBuild(config, keyFile, w0, o);
            r.last == Continue || r.last == Halt ==> r.cleaned.world.live == w0.live
  {
    var r := RunBuild(config, keyFile, w0, o);
    RunBuildLeaves(config, keyFile, w0, o);
    if r.last == Continue || r.last == Halt {
      UnwindRestores(r.ran, r.key, r.inst, r.afterRun, w0, config, o);
    }
  }

  /** The object a step that panicked in its Run could not read the id of,
      if any: only the key upload and the instance creation leave one. */
  function PanicOrphans(ran: nat, keyFile: string, o: Outcomes): set<Resource>
  {
    if ran == 1 && keyFile == "" && o.generated.Ok? && o.publicKey.Ok? then Client.OrphanOf(o.upload)
    else if ran == 2 then Client.OrphanOf(o.create)
    else {}
  }

  /** The saga guarantee for a panic in a step's Run: the runner unwinds
      through the earlier steps' Cleanups, so with acknowledged deletions
      the build leaves what was live before it plus only the object whose
      id the panicking step could not read. */
  lemma {:induction false} PanicLeavesOnlyOrphans(config: Config, keyFile: string, w0: World, o: Outcomes)
    requires FreshIds(w0, o)
    requires o.instanceDelete == RawOk("true") && o.keyDelete == RawOk("true") && !o.cleanupWait.Panic?
    ensures var r := RunBuild(config, keyFile, w0, o);
            r.last == Crash ==> r.cleaned.world.live == w0.live + PanicOrphans(r.ran, keyFile, o)
  {
    var k := Key.Run(Key.KeyStep(0, keyFile), w0, o.readFile, o.generated, o.publicKey, o.upload);
    if k.action == Continue {
      assert k.world.live == w0.live + KeyAdded(k.step);
      FromInstancePanic(config, k.step, k.world, w0, o);
    }
  }

  /** PanicLeavesOnlyOrphans from the instance step on: the world holds the
      uploaded key on top of what was live before the build. */
  lemma {:induction false} FromInstancePanic(config: Config, key: Key.KeyStep, w: World, w0: World, o: Outcomes)
    requires FreshIds(w0, o)
    requires o.instanceDelete == RawOk("true") && o.keyDelete == RawOk("true") && !o.cleanupWait.Panic?
    requires key.keyId != 0 ==> Client.UploadSshKey(o.upload) == Ok(key.keyId)
    requires w.live == w0.live + KeyAdded(key)
    ensures var r := FromInstance(config, key, w, o);
            r.last == Crash ==> r.cleaned.world.live == w0.live + (if r.ran == 2 then Client.OrphanOf(o.create) else {})
  {
    assert key.keyId != 0 ==> SshKey(key.keyId) !in w0.live;
    var i := Inst.Run(Inst.InstanceStep(""), w, config, o.create);
    if i.action == Continue {
      FromWaitPanic(config, key, i.step, i.world, w0, o);
    }
  }

  /** PanicLeavesOnlyOrphans from the wait step on: the world holds the
      uploaded key and the created instance on top of what was live before
      the build, and a panic unwinds both. */
  lemma {:induction false} FromWaitPanic(config: Config, key: Key.KeyStep, inst: Inst.InstanceStep, w: World,
                                         w0: World, o: Outcomes)
    requires o.instanceDelete == RawOk("true") && o.keyDelete == RawOk("true") && !o.cleanupWait.Panic?
    requires inst.instanceId != "" && Instance(inst.instanceId) !in w0.live
    requires key.keyId != 0 ==> SshKey(key.keyId) !in w0.live
    requires w.live == w0.live + KeyAdded(key) + {Instance(inst.instanceId)}
    ensures var r := FromWait(config, key, inst, w, o);
            r.last == Crash ==> r.cleaned.world.live == w0.live
  {
    var r := FromWait(config, key, inst, w, o);
    if r.last == Crash {
      UnwindRestores(r.ran - 1, key, inst, r.afterRun, w0, config, o);
    }
  }

  /** Cleanup runs in reverse order of creation: when both the key and the
      instance were created, the instance is waited for and deleted before
      the key is, whether the build ends, halts, or panics in a step's Run. */
  lemma InstanceDeletedBeforeKey(config: Config, w0: World, o: Outcomes)
    requires FreshIds(w0, o)
    requires Client.UploadSshKey(o.upload).Ok? && o.generated.Ok? && o.publicKey.Ok?
    requires Client.SingleObject(o.create).Ok?
    requires Json.Lookup(Client.SingleObject(o.create).value, "globalIdentifier").JStr?
    requires !o.cleanupWait.Panic?
    ensures var r := RunBuild(config, "", w0, o);
            var id := Json.Lookup(Client.SingleObject(o.create).value, "globalIdentifier").s;
            r.last != Abort ==>
              r.cleaned.calls == [WaitReady(id, config.stateTimeout), Delete(Instance(id)),
                                  Delete(SshKey(Client.UploadSshKey(o.upload).value))]
  {
  }

  /** A build that stops in the key step never touches an instance and
      deletes nothing. When the key step halts, nothing remote was created;
      when it panics on an upload reply whose object has no numeric id, the
      key the provider did create is left behind. */
  lemma KeyHaltCleansNothing(config: Config, keyFile: string, w0: World, o: Outcomes)
    ensures var r := RunBuild(config, keyFile, w0, o);
            && (r.ran == 1 ==> r.cleaned.calls == [] && r.inst.instanceId == "")
            && (r.ran == 1 && r.last != Crash ==> r.cleaned.world.live == w0.live)
            && (r.ran == 1 && r.last == Crash ==>
                  r.cleaned.world.live == w0.live + (if keyFile == "" && o.generated.Ok? && o.publicKey.Ok?
                                                     then Client.OrphanOf(o.upload) else {}))
  {
  }

  /** The upload succeeds but its reply has no numeric "id": the process
      panics, so the key the provider created is never deleted. */
  lemma IdlessKeyIsLeaked(config: Config, w0: World, o: Outcomes)
    requires o.generated.Ok? && o.publicKey.Ok?
    requires Client.SingleObject(o.upload).Ok? && !Json.Lookup(Client.SingleObject(o.upload).value, "id").JNum?
    ensures var r := RunBuild(config, "", w0, o);
            && r.ran == 1 && r.last == Crash && r.cleaned.calls == []
            && Orphan(Client.SingleObject(o.upload).value) in r.cleaned.world.live
  {
  }

  /** The instance is created but its reply has no string
      "globalIdentifier": the process panics inside the instance step, so
      that instance is never deleted. The panic still unwinds through the
      key step's deferred Cleanup, which deletes the uploaded key. */
  lemma IdlessInstanceIsLeaked(config: Config, keyFile: string, w0: World, o: Outcomes)
    requires Key.Run(Key.KeyStep(0, keyFile), w0, o.readFile, o.generated, o.publicKey, o.upload).action == Continue
    requires Client.SingleObject(o.create).Ok?
    requires !Json.Lookup(Client.SingleObject(o.create).value, "globalIdentifier").JStr?
    ensures var r := RunBuild(config, keyFile, w0, o);
            && r.ran == 2 && r.last == Crash && r.cleaned.crashed
            && Orphan(Client.SingleObject(o.create).value) in r.cleaned.world.live
            && r.cleaned.calls == (if r.key.keyId != 0 then [Delete(SshKey(r.key.keyId))] else [])
            && (r.key.keyId != 0 && o.keyDelete == RawOk("true") ==> SshKey(r.key.keyId) !in r.cleaned.world.live)
  {
  }
}

=== FILE: state.dfy ===
/** The typed state bag the build steps share, the remote world they act
    on, and the shape of one step transition. */
module Build {
  import opened Json
  import opened Api
  import ClientRequest

  /** The configuration fields the steps read. */
  datatype Config = Config(
    instanceName: string,
    instanceDomain: string,
    datacenterName: string,
    instanceCpu: int,
    instanceMemory: int,
    diskCapacities: seq<int>,
    networkSpeed: int,
    baseImageId: string,
    baseOsCode: string,
    imageName: string,
    imageDescription: string,
    imageType: string,
    stateTimeout: int)

  /** The state bag's entries, one typed field per key: "ssh_key_id",
      "instance_data", "image_id", "error" and "ssh_private_key". */
  datatype StateBag = StateBag(
    sshKeyId: Option<int>,
    instanceData: Option<map<string, Json>>,
    imageId: Option<string>,
    error: Option<Error>,
    sshPrivateKey: Option<string>)

  /** The state bag together with the SSH keys and instances that exist on
      the SoftLayer side because of this build. */
  datatype World = World(bag: StateBag, live: set<Resource>)

  /** What a step's Run tells the runner: go on, or stop; or a Go panic.
      `Crash` is a panic in the runner's own goroutine: it unwinds through
      the Cleanups the runner has already deferred (those of the earlier
      steps, not the panicking one's), and then the process dies. `Abort` is
      a panic in the readiness poller's goroutine: the process dies at once
      and no deferred call runs. */
  datatype Action = Continue | Halt | Crash | Abort

  /** An external effect a step issues, in order. */
  datatype Call =
    | ReadKeyFile(path: string)
    | UploadKey(publicKey: string)
    | CreateInstance(request: ClientRequest.InstanceReq)
    | WaitReady(instanceId: string, timeout: int)
    | Delete(resource: Resource)
    | GetBlockDevices(instanceId: string)
    | CaptureStandard(instanceId: string, name: string, description: string, deviceIds: seq<int>)
    | CaptureFlex(instanceId: string, name: string, description: string)
    | ListImages

  /** The outcome of one Run: the step's own fields afterwards, the world,
      the action and the calls issued. */
  datatype Ran<S> = Ran(step: S, world: World, action: Action, calls: seq<Call>)

  /** The outcome of one Cleanup. It has no action and no error: a failed
      compensation is only reported. `crashed` is a panic inside it. */
  datatype Cleaned = Cleaned(world: World, calls: seq<Call>, reported: seq<Error>, crashed: bool)

  /** `state.Put("error", e)`. */
  function Record(w: World, e: Error): World
  {
    w.(bag := w.bag.(error := Some(e)))
  }

  /** The instance id the later steps read back from "instance_data": the
      process panics when the entry is missing or its identifier is not a
      string. */
  function RecordedInstanceId(bag: StateBag): (r: Result<string>)
    ensures !r.Err?
    ensures r.Ok? <==> bag.instanceData.Some? && Lookup(bag.instanceData.value, "globalIdentifier").JStr?
    ensures r.Ok? ==> Lookup(bag.instanceData.value, "globalIdentifier") == JStr(r.value)
  {
    if bag.instanceData.None? then Panic("instance_data is not set")
    else match Lookup(bag.instanceData.value, "globalIdentifier")
      case JStr(id) => Ok(id)
      case _ => Panic("globalIdentifier is not a string")
  }

  /** A step whose Run touched nothing and whose Cleanup has nothing to do. */
  function Untouched(w: World): Cleaned
  {
    Cleaned(w, [], [], false)
  }
}

=== FILE: step_capture_image.dfy ===
/** stepCaptureImage (builder/softlayer/step_capture_image.go): capture an
    image of the instance, either a standard image of its non-swap disks or
    a flex image of the whole guest, wait for the instance to be idle again,
    and record the new image's id. */
module StepCaptureImage {
  import opened Json
  import opened Api
  import opened Build
  import opened Client

  const DevicesFailed := "Unable to get list of block devices"
  const CaptureFailed := "Error while trying to capture an image"
  const WaitFailed := "Error waiting for instance to become ACTIVE again after image creation call"
  const ImagesFailed := "Unable to get list of images"

  /** The errors the step records when it halts: one of its four wrapped
      messages around the failing call's error, or no image found under the
      configured name. */
  predicate IsCaptureError(e: Error, name: string)
  {
    || e == NoImageFound(name)
    || (e.Wrapped? && e.context in {DevicesFailed, CaptureFailed, WaitFailed, ImagesFailed})
  }

  /** Only the exact string "standard" selects a standard image. */
  predicate IsStandard(config: Config)
  {
    config.imageType == "standard"
  }

  /** The device ids a standard capture asks for, when the listing could be
      read: the capture loop skips SWAP disks only, and it also reads each
      entry's "diskImageId". */
  function StandardDeviceIds(devicesReply: Reply): (r: Result<seq<int>>)
    ensures r.Ok? <==> DoHttpRequest(devicesReply).Ok? && ParseDevices(DoHttpRequest(devicesReply).value, true).Ok?
    ensures r.Ok? ==> r.value == KeptIds(ParseDevices(DoHttpRequest(devicesReply).value, true).value, SkipSwap)
    ensures r.Err? ==> DoHttpRequest(devicesReply).Err? || (DoHttpRequest(devicesReply).Ok? && ParseDevices(DoHttpRequest(devicesReply).value, true).Err?)
    ensures DoHttpRequest(devicesReply).Err? ==> r == Err(DoHttpRequest(devicesReply).error)
    ensures r.Panic? <==>
              DoHttpRequest(devicesReply).Panic?
              || (DoHttpRequest(devicesReply).Ok? && ParseDevices(DoHttpRequest(devicesReply).value, true).Panic?)
  {
    match DoHttpRequest(devicesReply)
    case Ok(js) =>
      (match ParseDevices(js, true)
       case Ok(ds) => Ok(KeptIds(ds, SkipSwap))
       case Err(e) => Err(e)
       case Panic(p) => Panic(p))
    case Err(e) => Err(e)
    case Panic(p) => Panic(p)
  }

  /** Run, given the replies to the block-device listing, the capture call
      and the image listing, and the outcome of the readiness wait. */
  function Run(w: World, config: Config, devicesReply: Reply, captureReply: Reply,
               wait: Result<()>, imagesReply: Reply): (r: Ran<()>)
    ensures r.action == Halt ==> r.world.bag.error.Some? && IsCaptureError(r.world.bag.error.value, config.imageName)
    ensures r.action != Halt ==> r.world.bag.error == w.bag.error
    ensures r.world.live == w.live
    ensures r.world.bag.sshKeyId == w.bag.sshKeyId && r.world.bag.instanceData == w.bag.instanceData
    ensures r.action == Continue ==> r.world.bag.imageId.Some?
    ensures RecordedInstanceId(w.bag).Panic? ==> r == Ran((), w, Crash, [])
    ensures r.action == Abort ==> RecordedInstanceId(w.bag).Ok? && wait.Panic?
    ensures RecordedInstanceId(w.bag).Ok? && IsStandard(config)
            && StandardDeviceIds(devicesReply).Ok? && SingleObject(captureReply).Ok? && wait.Ok?
            && FindImageIdByName(DoHttpRequest(imagesReply), config.imageName).Ok? ==>
              && r.action == Continue
              && r.world.bag.imageId == Some(FindImageIdByName(DoHttpRequest(imagesReply), config.imageName).value)
    ensures RecordedInstanceId(w.bag).Ok? && !IsStandard(config)
            && SingleObject(captureReply).Ok? && Lookup(SingleObject(captureReply).value, "globalIdentifier").JStr? && wait.Ok? ==>
              && r.action == Continue
              && r.world.bag.imageId == Some(Lookup(SingleObject(captureReply).value, "globalIdentifier").s)
    ensures RecordedInstanceId(w.bag).Ok? ==>
              var id := RecordedInstanceId(w.bag).value;
              |r.calls| > 0 &&
              r.calls[0] == if IsStandard(config) then GetBlockDevices(id)
                            else CaptureFlex(id, config.imageName, config.imageDescription)
  {
    match RecordedInstanceId(w.bag)
    case Ok(id) =>
      if IsStandard(config) then RunStandard(w, config, id, devicesReply, captureReply, wait, imagesReply)
      else RunFlex(w, config, id, captureReply, wait)
    case _ => Ran((), w, Crash, [])
  }

  /** The standard branch: list the disks and capture the kept ones. */
  function RunStandard(w: World, config: Config, id: string, devicesReply: Reply, captureReply: Reply,
                       wait: Result<()>, imagesReply: Reply): (r: Ran<()>)
    ensures r.action == Halt ==> r.world.bag.error.Some? && IsCaptureError(r.world.bag.error.value, config.imageName)
    ensures r.action != Halt ==> r.world.bag.error == w.bag.error
    ensures r.world.live == w.live
    ensures r.world.bag.sshKeyId == w.bag.sshKeyId && r.world.bag.instanceData == w.bag.instanceData
    ensures !StandardDeviceIds(devicesReply).Ok? ==> r.calls == [GetBlockDevices(id)]
    ensures r.action == Abort <==> StandardDeviceIds(devicesReply).Ok? && SingleObject(captureReply).Ok? && wait.Panic?
    ensures StandardDeviceIds(devicesReply).Ok? && SingleObject(captureReply).Ok? && wait.Ok?
            && FindImageIdByName(DoHttpRequest(imagesReply), config.imageName).Ok? ==>
              && r.action == Continue
              && r.world.bag.imageId == Some(FindImageIdByName(DoHttpRequest(imagesReply), config.imageName).value)
    ensures StandardDeviceIds(devicesReply).Err? ==>
              r.action == Halt && r.world == Record(w, Wrapped(DevicesFailed, StandardDeviceIds(devicesReply).error))
    ensures StandardDeviceIds(devicesReply).Ok? && SingleObject(captureReply).Err? ==>
              r.action == Halt && r.world == Record(w, Wrapped(CaptureFailed, SingleObject(captureReply).error))
    ensures StandardDeviceIds(devicesReply).Ok? && SingleObject(captureReply).Ok? && wait.Err? ==>
              r.action == Halt && r.world == Record(w, Wrapped(WaitFailed, wait.error))
    ensures StandardDeviceIds(devicesReply).Ok? && SingleObject(captureReply).Ok? && wait.Ok?
            && DoHttpRequest(imagesReply).Err? ==>
              r.action == Halt && r.world == Record(w, Wrapped(ImagesFailed, DoHttpRequest(imagesReply).error))
    ensures StandardDeviceIds(devicesReply).Ok? ==>
              && |r.calls| >= 2
              && r.calls[..2] == [GetBlockDevices(id),
                                  CaptureStandard(id, config.imageName, config.imageDescription, StandardDeviceIds(devicesReply).value)]
              && forall c :: c in r.calls[2..] ==> c == WaitReady(id, config.stateTimeout) || c == ListImages
    ensures !wait.Ok? ==> r.world.bag.imageId == w.bag.imageId && r.action != Continue
    ensures r.action == Continue ==>
              && r.world.bag.imageId.Some? && r.world.bag.imageId.value != ""
              && FindImageIdByName(DoHttpRequest(imagesReply), config.imageName) == Ok(r.world.bag.imageId.value)
    ensures StandardDeviceIds(devicesReply).Ok? && SingleObject(captureReply).Ok? && wait.Ok?
            && DoHttpRequest(imagesReply).Ok? && PassedOver(DoHttpRequest(imagesReply).value, config.imageName, 0, |DoHttpRequest(imagesReply).value|)
            ==> r.action == Halt && r.world.bag.error == Some(NoImageFound(config.imageName))
  {
    var listed := [GetBlockDevices(id)];
    match StandardDeviceIds(devicesReply)
    case Panic(_) => Ran((), w, Crash, listed)
    case Err(e) => Ran((), Record(w, Wrapped(DevicesFailed, e)), Halt, listed)
    case Ok(ids) =>
      var captured := listed + [CaptureStandard(id, config.imageName, config.imageDescription, ids)];
      match SingleObject(captureReply)
      case Panic(_) => Ran((), w, Crash, captured)
      case Err(e) => Ran((), Record(w, Wrapped(CaptureFailed, e)), Halt, captured)
      case Ok(_) => AwaitStandard(w, config, id, captured, wait, imagesReply)
  }

  /** After a standard capture: wait for the instance, then look the new
      image up by name. */
  function AwaitStandard(w: World, config: Config, id: string, calls: seq<Call>,
                         wait: Result<()>, imagesReply: Reply): (r: Ran<()>)
    ensures r.action == Halt ==> r.world.bag.error.Some? && IsCaptureError(r.world.bag.error.value, config.imageName)
    ensures r.action != Halt ==> r.world.bag.error == w.bag.error
    ensures r.world.live == w.live
    ensures r.world.bag.sshKeyId == w.bag.sshKeyId && r.world.bag.instanceData == w.bag.instanceData
    ensures r.calls == calls + [WaitReady(id, config.stateTimeout)]
            || r.calls == calls + [WaitReady(id, config.stateTimeout), ListImages]
    ensures !wait.Ok? ==> r.world.bag.imageId == w.bag.imageId && r.action != Continue
    ensures r.action == Continue ==>
              && r.world.bag.imageId.Some? && r.world.bag.imageId.value != ""
              && FindImageIdByName(DoHttpRequest(imagesReply), config.imageName) == Ok(r.world.bag.imageId.value)
    ensures wait.Err? ==> r.action == Halt && r.world == Record(w, Wrapped(WaitFailed, wait.error))
    ensures r.action == Abort <==> wait.Panic?
    ensures wait.Ok? && FindImageIdByName(DoHttpRequest(imagesReply), config.imageName).Ok? ==>
              && r.action == Continue
              && r.world.bag.imageId == Some(FindImageIdByName(DoHttpRequest(imagesReply), config.imageName).value)
    ensures wait.Ok? && DoHttpRequest(imagesReply).Err? ==>
              r.action == Halt && r.world == Record(w, Wrapped(ImagesFailed, DoHttpRequest(imagesReply).error))
    ensures wait.Ok? && DoHttpRequest(imagesReply).Ok? && r.action == Halt ==>
              r.world.bag.error == Some(NoImageFound(config.imageName))
    ensures wait.Ok? && DoHttpRequest(imagesReply).Ok? ==>
              (r.action == Halt <==> FindImageIdByName(DoHttpRequest(imagesReply), config.imageName).Err?)
    ensures wait.Ok? && DoHttpRequest(imagesReply).Ok?
            && PassedOver(DoHttpRequest(imagesReply).value, config.imageName, 0, |DoHttpRequest(imagesReply).value|)
            ==> r.action == Halt && r.world.bag.error == Some(NoImageFound(config.imageName))
  {
    var waited := calls + [WaitReady(id, config.stateTimeout)];
    match wait
    case Panic(_) => Ran((), w, Abort, waited)
    case Err(e) => Ran((), Record(w, Wrapped(WaitFailed, e)), Halt, waited)
    case Ok(_) =>
      var looked := waited + [ListImages];
      match DoHttpRequest(imagesReply)
      case Panic(_) => Ran((), w, Crash, looked)
      case Err(e) => Ran((), Record(w, Wrapped(ImagesFailed, e)), Halt, looked)
      case Ok(images) => RecordImageId(w, config.imageName, images, looked)
  }

  /** The end of the standard branch: the lookup loop writes "image_id" as
      soon as it finds a usable entry, and only then checks for an empty id. */
  function RecordImageId(w: World, name: string, images: seq<Json>, calls: seq<Call>): (r: Ran<()>)
    ensures r.calls == calls && r.world.live == w.live
    ensures r.world.bag.sshKeyId == w.bag.sshKeyId && r.world.bag.instanceData == w.bag.instanceData
    ensures r.action == Halt ==> r.world.bag.error == Some(NoImageFound(name))
    ensures r.action != Halt ==> r.world.bag.error == w.bag.error
    ensures r.action == Continue <==> FindImageIdByName(Ok(images), name).Ok?
    ensures r.action == Continue ==> r.world.bag.imageId == Some(FindImageIdByName(Ok(images), name).value)
    ensures r.action == Halt <==> FindImageIdByName(Ok(images), name).Err?
    ensures r.action == Crash ==> r.world == w
  {
    match ScanImages(images, name, 0)
    case Ok(found) =>
      if found.None? then Ran((), Record(w, NoImageFound(name)), Halt, calls)
      else
        var w1 := w.(bag := w.bag.(imageId := Some(found.value)));
        if found.value == "" then Ran((), Record(w1, NoImageFound(name)), Halt, calls)
        else Ran((), w1, Continue, calls)
    case _ => Ran((), w, Crash, calls)
  }

  /** The flex branch: capture the whole guest, record the id the capture
      call returned, then wait. */
  function RunFlex(w: World, config: Config, id: string, captureReply: Reply, wait: Result<()>): (r: Ran<()>)
    ensures r.action == Halt ==> r.world.bag.error.Some? && IsCaptureError(r.world.bag.error.value, config.imageName)
    ensures r.action != Halt ==> r.world.bag.error == w.bag.error
    ensures r.world.live == w.live
    ensures r.world.bag.sshKeyId == w.bag.sshKeyId && r.world.bag.instanceData == w.bag.instanceData
    ensures |r.calls| > 0 && r.calls[0] == CaptureFlex(id, config.imageName, config.imageDescription)
    ensures forall c :: c in r.calls ==> c.CaptureFlex? || c == WaitReady(id, config.stateTimeout)
    ensures SingleObject(captureReply).Ok? && Lookup(SingleObject(captureReply).value, "globalIdentifier").JStr? ==>
              r.world.bag.imageId == Some(Lookup(SingleObject(captureReply).value, "globalIdentifier").s)
              && r.calls == [CaptureFlex(id, config.imageName, config.imageDescription), WaitReady(id, config.stateTimeout)]
    ensures r.action == Continue <==>
              SingleObject(captureReply).Ok? && Lookup(SingleObject(captureReply).value, "globalIdentifier").JStr? && wait.Ok?
    ensures SingleObject(captureReply).Err? ==>
              r.action == Halt && r.world == Record(w, Wrapped(CaptureFailed, SingleObject(captureReply).error))
    ensures SingleObject(captureReply).Ok? && Lookup(SingleObject(captureReply).value, "globalIdentifier").JStr? && wait.Err? ==>
              r.action == Halt && r.world.bag.error == Some(Wrapped(WaitFailed, wait.error))
    ensures SingleObject(captureReply).Ok? && !Lookup(SingleObject(captureReply).value, "globalIdentifier").JStr? ==>
              r.action == Crash && r.world == w
    ensures r.action == Abort <==>
              SingleObject(captureReply).Ok? && Lookup(SingleObject(captureReply).value, "globalIdentifier").JStr? && wait.Panic?
  {
    var captured := [CaptureFlex(id, config.imageName, config.imageDescription)];
    match SingleObject(captureReply)
    case Panic(_) => Ran((), w, Crash, captured)
    case Err(e) => Ran((), Record(w, Wrapped(CaptureFailed, e)), Halt, captured)
    case Ok(data) =>
      match Lookup(data, "globalIdentifier")
      case JStr(imageId) =>
        var w1 := w.(bag := w.bag.(imageId := Some(imageId)));
        var waited := captured + [WaitReady(id, config.stateTimeout)];
        (match wait
         case Ok(_) => Ran((), w1, Continue, waited)
         case Err(e) => Ran((), Record(w1, Wrapped(WaitFailed, e)), Halt, waited)
         case Panic(_) => Ran((), w1, Abort, waited))
      case _ => Ran((), w, Crash, captured)
  }

  /** Unlike the standard branch, the flex branch never checks the id it
      records: an empty identifier from the capture call still continues. */
  lemma FlexAcceptsEmptyId(w: World, config: Config, id: string, wait: Result<()>)
    requires wait.Ok?
    ensures var r := RunFlex(w, config, id, Decoded(JObj(map["globalIdentifier" := JStr("")])), wait);
            r.action == Continue && r.world.bag.imageId == Some("")
  {
  }

  /** Cleanup has nothing to undo. */
  function Cleanup(w: World): (r: Cleaned)
    ensures r.world == w && r.calls == [] && r.reported == [] && !r.crashed
  {
    Untouched(w)
  }
}

=== FILE: step_create_instance.dfy ===
/** stepCreateInstance (builder/softlayer/step_create_instance.go): create
    the virtual guest and record it; Cleanup waits for the guest to be idle
    and deletes it. */
module StepCreateInstance {
  import opened Json
  import opened Api
  import opened Build
  import opened ClientRequest
  import Client

  /** The step's own field: the id of the instance it created ("" when none). */
  datatype InstanceStep = InstanceStep(instanceId: string)

  /** The key id handed to CreateInstance: the state's "ssh_key_id" when
      present, 0 (no key) otherwise. */
  function ProvisioningKeyId(bag: StateBag): (r: int)
    ensures bag.sshKeyId.Some? ==> r == bag.sshKeyId.value
    ensures r != 0 ==> bag.sshKeyId == Some(r)
  {
    if bag.sshKeyId.Some? then bag.sshKeyId.value else 0
  }

  /** The instance definition built from the configuration. Its disk flag
      asks for a local disk, which the request then overrides. */
  function Definition(config: Config, keyId: int): (t: InstanceType)
    ensures t.hostName == config.instanceName && t.domain == config.instanceDomain
    ensures t.datacenter == config.datacenterName && t.cpus == config.instanceCpu && t.memory == config.instanceMemory
    ensures t.hourlyBilling && t.localDisk && !t.privateNetworkOnly
    ensures t.provisioningSshKeyId == keyId
    ensures t.diskCapacities == config.diskCapacities && t.networkSpeed == config.networkSpeed
    ensures t.baseImageId == config.baseImageId && t.baseOsCode == config.baseOsCode
  {
    InstanceType(
      config.instanceName, config.instanceDomain, config.datacenterName,
      config.instanceCpu, config.instanceMemory,
      true, true, false,
      config.diskCapacities, config.networkSpeed, keyId,
      config.baseImageId, config.baseOsCode)
  }

  /** Run, given the reply to createObject. */
  function Run(self: InstanceStep, w: World, config: Config, reply: Reply): (r: Ran<InstanceStep>)
    ensures |r.calls| == 1 && r.calls[0].CreateInstance?
    ensures r.calls[0].request == BuildInstanceRequest(Definition(config, ProvisioningKeyId(w.bag)))
    ensures var req := r.calls[0].request;
            && req.sshKeys == (if w.bag.sshKeyId.Some? && w.bag.sshKeyId.value != 0 then [w.bag.sshKeyId.value] else [])
            && req.hostName == Sanitize(config.instanceName) && req.domain == Sanitize(config.instanceDomain)
            && (req.templateGroup.Some? <==> config.baseImageId != "")
            && (config.baseImageId == "" ==> req.osReferenceCode == config.baseOsCode && |req.blockDevices| == |config.diskCapacities|)
            && !req.localDisk
    ensures r.action == Halt ==> r.world.bag.error.Some?
    ensures r.action != Halt ==> r.world.bag.error == w.bag.error
    ensures r.world.bag.sshKeyId == w.bag.sshKeyId && r.world.bag.imageId == w.bag.imageId
    ensures Client.SingleObject(reply).Err? ==>
              && r.action == Halt && r.world.bag.error == Some(Client.SingleObject(reply).error)
              && r.step == self && r.world.live == w.live && r.world.bag.instanceData == w.bag.instanceData
    ensures r.action == Continue ==>
              && Client.SingleObject(reply).Ok?
              && r.world.bag.instanceData == Some(Client.SingleObject(reply).value)
              && Lookup(Client.SingleObject(reply).value, "globalIdentifier") == JStr(r.step.instanceId)
              && r.world.live == w.live + {Instance(r.step.instanceId)}
    ensures r.action != Abort
    ensures r.action == Halt <==> Client.SingleObject(reply).Err?
    ensures Client.SingleObject(reply).Ok? && Lookup(Client.SingleObject(reply).value, "globalIdentifier").JStr? ==>
              && r.action == Continue
              && r.step.instanceId == Lookup(Client.SingleObject(reply).value, "globalIdentifier").s
    ensures r.action != Continue ==> r.step == self
    ensures r.action == Halt ==> r.world.live == w.live
    ensures r.action == Crash ==> r.world.live == w.live + Client.OrphanOf(reply)
  {
    var calls := [CreateInstance(BuildInstanceRequest(Definition(config, ProvisioningKeyId(w.bag))))];
    match Client.SingleObject(reply)
    case Err(e) => Ran(self, Record(w, e), Halt, calls)
    case Panic(_) => Ran(self, w, Crash, calls)
    case Ok(data) =>
      var w1 := w.(bag := w.bag.(instanceData := Some(data)));
      match Lookup(data, "globalIdentifier")
      case JStr(id) => Ran(InstanceStep(id), w1.(live := w1.live + {Instance(id)}), Continue, calls)
      case _ => Ran(self, w1.(live := w1.live + {Orphan(data)}), Crash, calls)
  }

  /** Cleanup, given the outcome of the readiness wait and the raw reply to
      the DELETE. The deletion is attempted whether or not the wait
      succeeded; neither failure leaves Cleanup, both are reported. */
  function Cleanup(self: InstanceStep, w: World, config: Config, wait: Result<()>, destroy: RawResponse): (r: Cleaned)
    ensures self.instanceId == "" ==> r == Untouched(w)
    ensures r.world.bag == w.bag
    ensures r.crashed <==> self.instanceId != "" && wait.Panic?
    ensures self.instanceId != "" && !wait.Panic? ==>
              r.calls == [WaitReady(self.instanceId, config.stateTimeout), Delete(Instance(self.instanceId))]
    ensures r.world.live ==
              if self.instanceId != "" && !wait.Panic? && destroy == RawOk("true")
              then w.live - {Instance(self.instanceId)} else w.live
    ensures self.instanceId != "" && !wait.Panic? ==>
              |r.reported| == (if wait.Err? then 1 else 0) + (if destroy == RawOk("true") then 0 else 1)
  {
    if self.instanceId == "" then Untouched(w)
    else
      var waited := [WaitReady(self.instanceId, config.stateTimeout)];
      if wait.Panic? then Cleaned(w, waited, [], true)
      else
        var waitReport := if wait.Err? then [wait.error] else [];
        var calls := waited + [Delete(Instance(self.instanceId))];
        match Client.DestroyInstance(self.instanceId, destroy)
        case Ok(_) => Cleaned(w.(live := w.live - {Instance(self.instanceId)}), calls, waitReport, false)
        case Err(e) => Cleaned(w, calls, waitReport + [e], false)
        case Panic(_) => Cleaned(w, calls, waitReport, true)
  }

  /** The instance is requested with the key the key step uploaded, and
      with no key when that step read a key file instead. */
  lemma RequestCarriesUploadedKey(self: InstanceStep, w: World, config: Config, reply: Reply, keyId: int)
    ensures w.bag.sshKeyId == Some(keyId) && keyId != 0 ==> Run(self, w, config, reply).calls[0].request.sshKeys == [keyId]
    ensures w.bag.sshKeyId.None? ==> Run(self, w, config, reply).calls[0].request.sshKeys == []
  {
  }

  /** Whatever happens in Run, a fresh step's Cleanup either does nothing or
      targets exactly the instance Run created. */
  lemma CleanupTargetsCreatedInstance(w: World, config: Config, reply: Reply, wait: Result<()>, destroy: RawResponse)
    ensures var ran := Run(InstanceStep(""), w, config, reply);
            var cleaned := Cleanup(ran.step, ran.world, config, wait, destroy);
            && (ran.action != Continue ==> cleaned == Untouched(ran.world))
            && (ran.action == Continue && ran.step.instanceId != "" && !wait.Panic? ==>
                  Delete(Instance(ran.step.instanceId)) in cleaned.calls)
  {
  }
}

=== FILE: step_create_ssh_key.dfy ===
/** stepCreateSshKey (builder/softlayer/step_create_ssh_key.go): either read
    the configured private key file, or generate a key pair and upload its
    public half; Cleanup deletes the uploaded key. Reading the file,
    generating the key and encoding the public key are local effects whose
    outcomes are parameters. */
module StepCreateSshKey {
  import opened Api
  import opened Build
  import Client

  /** The step's own fields: the id of the key it uploaded (0 when none)
      and the configured private key file ("" when none). */
  datatype KeyStep = KeyStep(keyId: int, privateKeyFile: string)

  const KeyFileFailed := "Error loading configured private key file"

  /** The error a halting Run records: the wrapped file error when a key
      file is configured, otherwise the error of the first local or remote
      call that failed. */
  predicate IsKeyError(e: Error, self: KeyStep, readFile: Result<string>, generated: Result<string>,
                       publicKey: Result<string>, upload: Reply)
  {
    if self.privateKeyFile != "" then readFile.Err? && e == Wrapped(KeyFileFailed, readFile.error)
    else
      || (generated.Err? && e == generated.error)
      || (generated.Ok? && publicKey.Err? && e == publicKey.error)
      || (generated.Ok? && publicKey.Ok? && Client.UploadSshKey(upload).Err? && e == Client.UploadSshKey(upload).error)
  }

  /** The step created no remote key. */
  predicate NothingUploaded(self: KeyStep, w: World, r: Ran<KeyStep>)
  {
    r.step == self && r.world.live == w.live && r.world.bag.sshKeyId == w.bag.sshKeyId
  }

  /** Run, given the outcome of reading the key file, of generating the key
      pair (its PEM-encoded private half), of encoding the public key, and
      the reply to the upload. */
  function Run(self: KeyStep, w: World, readFile: Result<string>, generated: Result<string>,
               publicKey: Result<string>, upload: Reply): (r: Ran<KeyStep>)
    ensures r.action == Halt ==>
              r.world.bag.error.Some? && IsKeyError(r.world.bag.error.value, self, readFile, generated, publicKey, upload)
    ensures r.action != Halt ==> r.world.bag.error == w.bag.error
    ensures self.privateKeyFile != "" && readFile.Err? ==>
              r.action == Halt && r.world.bag.error == Some(Wrapped(KeyFileFailed, readFile.error))
    ensures self.privateKeyFile == "" && generated.Err? ==>
              r.action == Halt && r.world.bag.error == Some(generated.error)
    ensures self.privateKeyFile == "" && generated.Ok? && publicKey.Err? ==>
              r.action == Halt && r.world.bag.error == Some(publicKey.error)
    ensures self.privateKeyFile == "" && generated.Ok? && publicKey.Ok? && Client.UploadSshKey(upload).Err? ==>
              r.action == Halt && r.world.bag.error == Some(Client.UploadSshKey(upload).error)
    ensures r.world.bag.instanceData == w.bag.instanceData && r.world.bag.imageId == w.bag.imageId
    ensures self.privateKeyFile != "" ==>
              && NothingUploaded(self, w, r)
              && r.calls == [ReadKeyFile(self.privateKeyFile)]
              && (readFile.Ok? ==> r.action == Continue && r.world.bag.sshPrivateKey == Some(readFile.value))
              && (readFile.Err? ==> r.action == Halt)
    ensures self.privateKeyFile == "" && generated.Ok? && publicKey.Ok? ==> r.calls == [UploadKey(publicKey.value)]
    ensures self.privateKeyFile == "" && generated.Ok? && publicKey.Ok? && Client.UploadSshKey(upload).Ok? ==>
              && r.action == Continue && r.step.keyId == Client.UploadSshKey(upload).value
              && r.world.bag.sshPrivateKey == Some(generated.value)
    ensures !(self.privateKeyFile == "" && generated.Ok? && publicKey.Ok?) ==> forall c :: c in r.calls ==> !c.UploadKey?
    ensures r.action == Continue && self.privateKeyFile == "" ==>
              && Client.UploadSshKey(upload) == Ok(r.step.keyId)
              && r.step.privateKeyFile == self.privateKeyFile
              && r.world.bag.sshKeyId == Some(r.step.keyId)
              && r.world.live == w.live + {SshKey(r.step.keyId)}
    ensures r.action != Abort
    ensures r.action == Halt ==> NothingUploaded(self, w, r)
    ensures r.action == Crash ==>
              && r.step == self && r.world.bag.sshKeyId == w.bag.sshKeyId
              && r.world.live == w.live + (if self.privateKeyFile == "" && generated.Ok? && publicKey.Ok?
                                           then Client.OrphanOf(upload) else {})
  {
    if self.privateKeyFile != "" then
      var calls := [ReadKeyFile(self.privateKeyFile)];
      match readFile
      case Ok(contents) =>
        Ran(self, w.(bag := w.bag.(sshPrivateKey := Some(contents))), Continue, calls)
      case Err(e) =>
        Ran(self, Record(w, Wrapped(KeyFileFailed, e)), Halt, calls)
      case Panic(_) =>
        Ran(self, w, Crash, calls)
    else
      match generated
      case Err(e) => Ran(self, Record(w, e), Halt, [])
      case Panic(_) => Ran(self, w, Crash, [])
      case Ok(privateKey) =>
        var w1 := w.(bag := w.bag.(sshPrivateKey := Some(privateKey)));
        match publicKey
        case Err(e) => Ran(self, Record(w1, e), Halt, [])
        case Panic(_) => Ran(self, w1, Crash, [])
        case Ok(key) =>
          var calls := [UploadKey(key)];
          match Client.UploadSshKey(upload)
          case Err(e) => Ran(self, Record(w1, e), Halt, calls)
          case Panic(_) => Ran(self, w1.(live := w1.live + Client.OrphanOf(upload)), Crash, calls)
          case Ok(keyId) =>
            var w2 := World(w1.bag.(sshKeyId := Some(keyId)), w1.live + {SshKey(keyId)});
            Ran(self.(keyId := keyId), w2, Continue, calls)
  }

  /** Cleanup, given the raw reply to the DELETE it may issue. */
  function Cleanup(self: KeyStep, w: World, destroy: RawResponse): (r: Cleaned)
    ensures self.keyId == 0 ==> r == Untouched(w)
    ensures self.keyId != 0 ==> r.calls == [Delete(SshKey(self.keyId))]
    ensures r.world.bag == w.bag && !r.crashed
    ensures r.world.live == if self.keyId != 0 && destroy == RawOk("true") then w.live - {SshKey(self.keyId)} else w.live
    ensures r.reported != [] <==> self.keyId != 0 && destroy != RawOk("true")
    ensures |r.reported| <= 1
  {
    if self.keyId == 0 then Untouched(w)
    else
      var calls := [Delete(SshKey(self.keyId))];
      match Client.DestroySshKey(self.keyId, destroy)
      case Ok(_) => Cleaned(w.(live := w.live - {SshKey(self.keyId)}), calls, [], false)
      case Err(e) => Cleaned(w, calls, [e], false)
      case Panic(_) => Cleaned(w, calls, [], true)
  }

  /** A fresh step that was given a key file, or whose Run did not
      continue, leaves nothing for Cleanup to delete. */
  lemma NothingCreatedMeansNoCleanup(file: string, w: World, readFile: Result<string>, generated: Result<string>,
                                     publicKey: Result<string>, upload: Reply, destroy: RawResponse)
    ensures var ran := Run(KeyStep(0, file), w, readFile, generated, publicKey, upload);
            file != "" || ran.action != Continue ==> Cleanup(ran.step, ran.world, destroy) == Untouched(ran.world)
  {
  }

  /** After a successful upload of a non-zero id, Cleanup deletes exactly
      the uploaded key, and an acknowledged deletion leaves the remote
      resources as they were before Run. */
  lemma UploadThenCleanup(w: World, generated: Result<string>, publicKey: Result<string>,
                          upload: Reply, destroy: RawResponse)
    requires Client.UploadSshKey(upload).Ok? && Client.UploadSshKey(upload).value != 0
    requires SshKey(Client.UploadSshKey(upload).value) !in w.live
    requires generated.Ok? && publicKey.Ok?
    ensures var ran := Run(KeyStep(0, ""), w, Panic("unused"), generated, publicKey, upload);
            var cleaned := Cleanup(ran.step, ran.world, destroy);
            && ran.action == Continue
            && cleaned.calls == [Delete(SshKey(Client.UploadSshKey(upload).value))]
            && (destroy == RawOk("true") ==> cleaned.world.live == w.live)
  {
  }
}

=== FILE: step_waitfor_instance.dfy ===
/** stepWaitforInstance (builder/softlayer/step_waitfor_instance.go): wait
    for the recorded instance to become ready. */
module StepWaitforInstance {
  import opened Api
  import opened Build

  const ActiveFailed := "Error waiting for instance to become ACTIVE"

  /** Run, given the outcome of the readiness wait. */
  function Run(w: World, config: Config, wait: Result<()>): (r: Ran<()>)
    ensures RecordedInstanceId(w.bag).Ok? ==>
              r.calls == [WaitReady(RecordedInstanceId(w.bag).value, config.stateTimeout)]
    ensures RecordedInstanceId(w.bag).Panic? ==> r.action == Crash && r.calls == []
    ensures r.action == Continue <==> RecordedInstanceId(w.bag).Ok? && wait.Ok?
    ensures r.action == Continue ==> r.world == w
    ensures r.action == Halt ==>
              wait.Err? && r.world == Record(w, Wrapped(ActiveFailed, wait.error))
    ensures r.action == Crash || r.action == Abort ==> r.world == w
    ensures r.action == Abort <==> RecordedInstanceId(w.bag).Ok? && wait.Panic?
    ensures r.action == Crash <==> RecordedInstanceId(w.bag).Panic?
    ensures RecordedInstanceId(w.bag).Ok? && wait.Err? ==>
              r.action == Halt && r.world == Record(w, Wrapped(ActiveFailed, wait.error))
  {
    match RecordedInstanceId(w.bag)
    case Ok(id) =>
      var calls := [WaitReady(id, config.stateTimeout)];
      (match wait
       case Ok(_) => Ran((), w, Continue, calls)
       case Err(e) => Ran((), Record(w, Wrapped(ActiveFailed, e)), Halt, calls)
       case Panic(_) => Ran((), w, Abort, calls))
    case _ => Ran((), w, Crash, [])
  }

  /** Cleanup has nothing to undo. */
  function Cleanup(w: World): (r: Cleaned)
    ensures r.world == w && r.calls == [] && r.reported == [] && !r.crashed
  {
    Untouched(w)
  }
}

=== FILE: text.dfy ===
/** The two pieces of Go's string library the builder relies on:
    `strings.Contains` and `strconv.Itoa` (for non-negative numbers). */
module Text {

  /** `sub` occurs in `s` starting at position `i`. */
  ghost predicate OccursAt(s: string, sub: string, i: int)
  {
    0 <= i && i + |sub| <= |s| && s[i..i + |sub|] == sub
  }

  /** strings.Contains: the empty string occurs in every string. */
  function Contains(s: string, sub: string): bool
  {
    if |s| < |sub| then false
    else if s[..|sub|] == sub then true
    else Contains(s[1..], sub)
  }

  /** Contains agrees with the positional definition of a substring. */
  lemma {:induction false} ContainsIffOccurs(s: string, sub: string)
    ensures Contains(s, sub) <==> exists i :: OccursAt(s, sub, i)
  {
    if |s| < |sub| {
    } else if s[..|sub|] == sub {
      assert OccursAt(s, sub, 0);
    } else {
      ContainsIffOccurs(s[1..], sub);
      if exists i :: OccursAt(s[1..], sub, i) {
        var i :| OccursAt(s[1..], sub, i);
        assert s[1..][i..i + |sub|] == s[i + 1..i + 1 + |sub|];
        assert OccursAt(s, sub, i + 1);
      }
      if exists i :: OccursAt(s, sub, i) {
        var i :| OccursAt(s, sub, i);
        assert i != 0;
        assert s[1..][i - 1..i - 1 + |sub|] == s[i..i + |sub|];
        assert OccursAt(s[1..], sub, i - 1);
      }
    }
  }

  /** A string that lacks the first character of `sub` does not contain it. */
  lemma AbsentFirstChar(s: string, sub: string)
    requires |sub| > 0 && sub[0] !in s
    ensures !Contains(s, sub)
  {
    ContainsIffOccurs(s, sub);
    forall i | 0 <= i && i + |sub| <= |s|
      ensures !OccursAt(s, sub, i)
    {
      assert s[i..i + |sub|][0] == s[i];
    }
  }

  /** An occurrence at a known position makes Contains true. */
  lemma OccursContains(s: string, sub: string, i: int)
    requires OccursAt(s, sub, i)
    ensures Contains(s, sub)
  {
    ContainsIffOccurs(s, sub);
  }

  function DigitChar(d: nat): char
    requires d < 10
  {
    "0123456789"[d]
  }

  predicate IsDigit(c: char)
  {
    '0' <= c <= '9'
  }

  function DigitValue(c: char): nat
  {
    if IsDigit(c) then (c as int - '0' as int) as nat else 0
  }

  /** strconv.Itoa for a non-negative number: its shortest decimal form. */
  function Itoa(n: nat): (r: string)
    ensures |r| > 0
    ensures forall i :: 0 <= i < |r| ==> IsDigit(r[i])
    ensures n > 0 ==> r[0] != '0'
    decreases n
  {
    if n < 10 then [DigitChar(n)] else Itoa(n / 10) + [DigitChar(n % 10)]
  }

  /** Reads a string of decimal digits back as a number. */
  function ParseDecimal(s: string): nat
  {
    if |s| == 0 then 0 else ParseDecimal(s[..|s| - 1]) * 10 + DigitValue(s[|s| - 1])
  }

  /** Parsing undoes Itoa. */
  lemma {:induction false} ParseItoa(n: nat)
    ensures ParseDecimal(Itoa(n)) == n
    decreases n
  {
    if n >= 10 {
      var r := Itoa(n);
      assert r[..|r| - 1] == Itoa(n / 10);
      ParseItoa(n / 10);
    }
  }

  /** Different numbers are written differently. */
  lemma ItoaInjective(m: nat, n: nat)
    ensures Itoa(m) == Itoa(n) ==> m == n
  {
    ParseItoa(m);
    ParseItoa(n);
  }
}
